=== FILE: README.md ===
# RagdollWS arena, modelled in Dafny

A model of the multiplayer stick-figure brawler: the authoritative game server
(`server.js`) and the pure parts of the browser client (`public/game.js`).

On the server side, the module-level variables are one immutable `Session`
record. Every socket handler, timer callback, physics collision event and
loop tick is a pure function from session to session. Everything the server
emits is appended to the session's `log`: a broadcast to every connection, or
a direct message to one socket. The bounces `doBounce` applies to the world
are recorded in the same log as `Physics` entries, which no socket receives.

Timers are explicit:
- the countdown intervals are a set of live handles, plus the handle the
  server's `roundInterval` variable remembers;
- the one-shot round timeout is a flag;
- the lobby resets that `setTimeout` schedules are a multiset of delays.

Each callback is a `Fire…` operation. The random spawn points and `Date.now()`
are parameters.

On the client side, the browser's variables are a `ClientState` record. Each
socket listener and key listener is a function on it, and `sent` records what
the client emits.

Modules:
- `Base`: options, ids, the round state enumeration, controls.
- `HitModel`: the part tables and the damage matrix.
- `Ragdoll`: the structure of `makeStickman`.
- `Session`: the server state and its events.
- `Round`: countdown, round start, round timeout, win check, lobby reset.
- `Combat`: `applyDamage` and the collision handler.
- `Roster`: `join`, `input`, `start_game`, `disconnect`.
- `Tick`: input-to-force mapping.
- `Server`: one action at a time, and runs.
- `Invariants`: what every reachable session keeps.
- `Scenarios`: whole runs through the round state machine.
- `Escape`: `escapeHTML`.
- `Cheat`: the cheat-code buffer.
- `Keys`: key-edge detection.
- `Timer`: the `min:ss` clock.
- `Client`: the browser listeners.
- `Wire`: what the client makes of the server's messages.

## Behaviour of the code as written

Some behaviour of the code is easy to miss when reading it, and the model
states it as proved lemmas:

- **`resetToLobby` never clears `roundInterval`.** A countdown that is called
  off by a disconnect keeps firing. Its last firing starts a round from the
  lobby, with the players who are left, and no `start_game` is needed
  (`Scenarios.DesertedCountdownStillStarts`).
- **`resetToLobby` keeps the HP table** (`Round.ResetToLobby`). The old
  table is only replaced when the next round starts.
- **A kill can end the round in the middle of a collision pair.** When the
  first damage direction ends the round, the second direction is a no-op,
  because `applyDamage` acts only while `running`
  (`Combat.ResolvePair`, `Scenarios.FirstKillShieldsAttacker`).
- **Leaving a round can hand the win to the survivor.** A disconnect that
  leaves one player alive sends `game_over` naming that player and schedules
  a reset, even when too few players remain and the lobby is restored at once
  (`Scenarios.WalkoverWins`).
- **`checkForWinner` has no guard against repeats while `ended`.** Every later
  call with at most one survivor sends another `game_over` and schedules
  another reset (`Round.CheckForWinner`).
- **A connection can be both a player and a spectator.** This happens when it
  joins once in the lobby and again during a round (`Roster.Enrol`).

On the client:

- **Countdown messages carry no roster.** Every client, player or not, counts
  itself a spectator during the countdown and shows "Game in progress, please
  wait" (`Wire.CountdownShowsInProgress`).
- **The lobby message carries no roster.** It shows the "minimum 2 players"
  text until the following player list arrives (`Wire.LobbyAfterReset`).
- **A parked `game_state` is replayed on `connect` without its deadline**, so
  the round clock is not shown (`Wire.ReplayKeepsOldClock`).
- **The winner banner is HTML-escaped but drawn as canvas text.** A winner
  named `a&b` is announced as `a&amp;b` (`Wire.BannerShowsEntities`).

## Model

| member | source | states |
|---|---|---|
| HitModel.ParsePart | server.js:38-48 | a label has a table entry exactly when it is one of the six part names, and it names that part |
| HitModel.ParsePartName | server.js:44-48 | the six labels are distinct and all in the tables |
| HitModel.AttackTypeOf | server.js:38-42 | legs attack as feet, arms as hands, head and torso as other parts |
| HitModel.VulnerableAreaOf | server.js:44-48 | the head and torso are their own areas; both arms are the arm area and both legs the leg area |
| HitModel.AttackTypeByName | server.js:38-42 | a label has an attack type exactly when it is one of the six part names |
| HitModel.AreaByName | server.js:44-48 | a label has a vulnerable area exactly when it is one of the six part names |
| HitModel.HitDamage | server.js:31-36 | every matrix entry lies between 3 and 40 |
| HitModel.PartDamage | server.js:287-290 | damage between two parts is positive, and 40 exactly for a foot on the head |
| HitModel.TablesTotalOnLabels | server.js:38-48 | each of the six labels has exactly one attack type and one area, and damage between labelled parts is positive |
| HitModel.DamageOrdering | server.js:31-36 | feet beat hands beat other parts; head beats body beats limbs; arms and legs suffer alike |
| Ragdoll.MakeStickman | server.js:61-123 | six parts, each tagged with the owner and its own label, and five joints, each linking the body to a distinct other part |
| Ragdoll.EveryLimbJoined | server.js:75-116 | every part other than the body hangs on one of the five joints |
| Ragdoll.PartBody | server.js:247-249 | a part body is found exactly when the owner has a ragdoll with that label |
| Round.StartCountdown | server.js:137-149 | enters `countdown` at 5, arms a fresh interval and remembers its handle as `roundInterval` without clearing the old one, broadcasts the count |
| Round.FullHp | server.js:154-157 | every player and nobody else gets MAX_HP |
| Round.Respawned | server.js:155-166 | every player is un-eliminated and gets its spawn point |
| Round.WithRagdolls | server.js:158-166 | each player gets a fresh ragdoll at its spawn; other ragdolls stay |
| Round.Deploy | server.js:151-166 | `running`, HP table exactly the players at MAX_HP, players reset and respawned, one fresh ragdoll per player |
| Round.StartGame | server.js:151-183 | the deployed session with the round timer armed and the round start time recorded; broadcasts the running state with deadline now + 5 min, then the HP table |
| Round.Tock | server.js:142-143 | the count drops by one and is broadcast |
| Round.ClearRoundInterval | server.js:145 | only the remembered interval is cleared |
| Round.FireCountdownTick | server.js:141-148 | a dead handle does nothing; above one the count drops; at the end the round starts and the firing handle is cleared only if it is the remembered one |
| Round.FireRoundTimeout | server.js:168-176 | while `running` the timeout always reports no winner, ends the round and schedules a 4 s reset; otherwise it only disarms |
| Round.ResetToLobby | server.js:185-201 | `waiting`, no ragdolls, inputs, round timer or start time, spectators promoted to players; HP, intervals and count untouched |
| Round.FireReset | server.js:185-201 | a scheduled reset fires once, consuming its delay, and runs `resetToLobby`: `waiting`, no ragdolls, inputs or spectators, round timer and start time cleared, spectators promoted to players, HP and intervals kept, then the `waiting` state and the roster broadcast |
| Round.WinnerName | server.js:226 | the survivor's name, or '???' when it has none |
| Round.WinnerOf | server.js:222-236 | no winner exactly when nobody is alive; otherwise the sole survivor's name |
| Round.CheckForWinner | server.js:221-245 | acts only while `running` or `ended` with at most one alive: `game_over`, `ended`, timer cleared, reset scheduled after 5 s (win) or 4 s (draw) |
| Round.EndsIffAtMostOneAlive | server.js:222-237 | from `running`, the round ends exactly when at most one HP is above zero |
| Combat.Clamped | server.js:206-207 | HP never goes below zero, never rises, and reaches zero exactly when damage covers it |
| Combat.Eliminate | server.js:209-216 | the player is marked eliminated and its ragdoll loses every joint; nothing else changes |
| Combat.Wound | server.js:206-207 | only the target's HP changes, to the clamped value |
| Combat.CanBeDamaged | server.js:204-205 | the gate of `applyDamage`: running, HP present and non-zero, target not eliminated |
| Combat.ApplyDamage | server.js:203-245 | no effect unless the gate passes; otherwise the HP table with the clamped loss and `player_hp`, and at zero elimination and the win check; the round ends exactly when the blow is lethal and leaves at most one alive, and then `game_over` names the survivor (or nobody) right after `player_hp`, the round timer and start time are cleared and a 5 s (win) or 4 s (draw) reset is scheduled; any other call sends at most `player_hp` and leaves timers and resets alone; nobody else's elimination changes |
| Combat.ApplyDamageKeepsNames | server.js:209-226 | `applyDamage` changes no username, so the winner a later check would name is unchanged |
| Combat.ApplyDamageBounces | server.js:203-219 | `applyDamage` records no bounce |
| Combat.BounceBetween | server.js:247-253 | a bounce is recorded as a physics effect, sent on no socket, exactly when both bodies exist; nothing else changes |
| Combat.BodiesPresent | server.js:247-253 | both parts still have a ragdoll body, the condition under which `doBounce` acts |
| Combat.PairDamage | server.js:287-291 | positive exactly when both labels are in the tables, and then the `hitMatrix` entry for the defender's vulnerable area and the attacker's attack type |
| Combat.Strike | server.js:287-295 | zero damage does nothing; otherwise it is `applyDamage` on the defender followed by exactly one bounce of the two parts' bodies when both exist (and nothing else); the defender's HP clamped when the gate passes; the round ends exactly when that blow ends it; everyone else stays damageable unless the round ended |
| Combat.Bounces | server.js:290-304 | the number of bounces a log records |
| Combat.StrikeBounces | server.js:290-294 | a direction bounces once when it deals damage and both parts have a body, even when `applyDamage` does nothing |
| Combat.StrikeBounceCount | server.js:290-294 | a strike adds exactly the bounces its direction causes |
| Combat.PairBounceCount | server.js:285-304 | both directions of a pair add one bounce each when damaging with both bodies present |
| Combat.Skipped | server.js:278-283 | a pair is skipped when an owner tag is missing, both bodies share an owner, or an owner is an eliminated player |
| Combat.ResolvePair | server.js:276-305 | skipped pairs change nothing; otherwise `blood_particle` comes first, B loses the clamped damage A deals, A then loses the clamped damage B deals unless the first blow ended the round, no other HP changes, and one bounce is recorded for each damaging direction whose parts have bodies |
| Combat.FirstStrikeHp | server.js:287-295 | after both directions the defender's HP is what the first strike left |
| Combat.StrikeBackHp | server.js:296-304 | the strike back lands exactly when the first strike did not end the round |
| Combat.FirstStrikeEndsPair | server.js:287-295 | a first strike that ends the round leaves the pair `ended` |
| Combat.StrikeExtendsLog | server.js:287-295 | a strike only appends to the log |
| Combat.ResolveAll | server.js:275-306 | over all pairs, HP keys are kept and every HP stays between zero and its old value |
| Combat.ResolvePairLowersHp | server.js:276-305 | one pair never raises an HP nor drives one below zero |
| Combat.OnCollision | server.js:273-274 | nothing happens outside `running`; HP only falls, never below zero |
| Roster.Truncate | server.js:311 | a name of at most 16 characters is kept whole, a longer one is cut to exactly its first 16 |
| Roster.Enrol | server.js:313-323 | into `players` in `waiting`, into `spectators` otherwise |
| Roster.Welcome | server.js:324-333 | roster and `can_start` to all, then the snapshot and HP table to the joiner only |
| Roster.Join | server.js:309-334 | a non-string or empty name changes nothing; otherwise the cut name is enrolled and welcomed |
| Roster.JoinAnnounces | server.js:309-334 | the joiner lands in exactly one roster chosen by the state, with the four messages in order |
| Roster.SetInput | server.js:336-338 | last write wins; other inputs untouched |
| Roster.StartRequest | server.js:340-344 | the countdown starts exactly when `waiting` with at least two players |
| Roster.Remove | server.js:347-351 | the id leaves all five maps; nothing else changes |
| Roster.AnnounceRoster | server.js:352-353 | only the roster and `can_start` broadcasts are added |
| Roster.AbandonIfDeserted | server.js:355-357 | a round with fewer than two players left is reset to the lobby |
| Roster.Leave | server.js:347-354 | the id leaves all five maps and the countdown timers are untouched |
| Roster.LeaveChecksWinner | server.js:352-354 | the roster and `can_start` broadcasts come first; a round left with at most one alive then ends with `game_over` for the survivor (or nobody) and a reset scheduled; otherwise state and resets stay |
| Roster.Disconnect | server.js:346-358 | the id is gone from every map, and a round still under way keeps two or more players |
| Roster.DisconnectRoster | server.js:346-358 | the players afterwards are the old players and spectators minus the leaver; a round under way keeps both rosters minus the leaver; a forced reset returns to `waiting` with exactly the remaining players and spectators as players |
| Roster.LeaveKeepsLobby | server.js:352-354 | the win check inside `disconnect` never returns to the lobby nor leaves it |
| Roster.DisconnectKeepsOthers | server.js:346-358 | nobody but the leaver loses a place among the players |
| Roster.DisconnectKeepsTimers | server.js:346-358 | disconnect never touches the countdown intervals or the count |
| Tick.Axis | server.js:370-373 | opposite keys cancel; one key gives a unit force its way |
| Tick.PushOf | server.js:369-392 | no push for zero net force; otherwise the sign vector, and a spin exactly when one horizontal key is held |
| Tick.SpinFollowsHorizontalForce | server.js:382-392 | the spin always turns the way the horizontal force points |
| Tick.InputOf | server.js:365 | the controls a socket last sent, or none pressed |
| Tick.TickForces | server.js:362-367 | only non-eliminated owners of a ragdoll with a head and a non-zero force are pushed, and only while `running` or `ended` |
| Tick.RunTick | server.js:361-414 | the core state is unchanged; while `running` or `ended` one `sim_state` naming every ragdoll is broadcast |
| Server.Step | server.js:308-358 | the input, tick and collision handlers keep the roster keys; a disconnect removes the id |
| Invariants.SameCore | server.js:12-28 | the invariant depends only on the state, rosters, ragdolls and HP table |
| Invariants.JoinPreserves | server.js:309-334 | `join` keeps every session invariant |
| Invariants.EnrolPreserves | server.js:313-323 | enrolment keeps the invariant |
| Invariants.StartRequestPreserves | server.js:340-344 | `start_game` keeps the invariant |
| Invariants.CheckForWinnerPreserves | server.js:221-245 | the win check keeps the invariant |
| Invariants.ResetPreserves | server.js:185-201 | the lobby reset keeps the invariant |
| Invariants.DisconnectPreserves | server.js:346-358 | `disconnect` keeps the invariant |
| Invariants.RemovePreserves | server.js:347-351 | removing an id keeps the invariant |
| Invariants.AbandonPreserves | server.js:355-357 | abandoning a deserted round keeps the invariant |
| Invariants.StartGamePreserves | server.js:151-183 | `startGame` keeps the invariant from any state |
| Invariants.DeployPreserves | server.js:151-166 | deploying the round keeps the invariant |
| Invariants.DeployHp | server.js:154-157 | after deployment every HP is MAX_HP |
| Invariants.DeployRoster | server.js:155-166 | deployment keeps every player keyed by its id and named |
| Invariants.DeployRagdolls | server.js:158-166 | after deployment every ragdoll belongs to a player |
| Invariants.DeployLimp | server.js:155-166 | after deployment no player is eliminated, so no ragdoll needs to be limp |
| Invariants.DeployBookkeeping | server.js:151-166 | after deployment players, HP table and ragdolls cover the same ids and nobody is eliminated |
| Invariants.CountdownTickPreserves | server.js:141-148 | a countdown firing keeps the invariant |
| Invariants.TimeoutPreserves | server.js:168-176 | the round timeout keeps the invariant |
| Invariants.FireResetPreserves | server.js:233 | a scheduled reset keeps the invariant |
| Invariants.ApplyDamagePreserves | server.js:203-219 | `applyDamage` keeps the invariant: HP in range, eliminated exactly at zero HP, limp ragdolls |
| Invariants.WoundPreserves | server.js:206-208 | a non-lethal wound keeps the invariant |
| Invariants.EliminatePreserves | server.js:209-216 | marking the zero-HP player eliminated restores the bookkeeping |
| Invariants.StrikePreserves | server.js:287-295 | a strike keeps the invariant |
| Invariants.ResolvePairPreserves | server.js:276-305 | one collision pair keeps the invariant |
| Invariants.ResolveAllPreserves | server.js:275-306 | a whole collision event keeps the invariant |
| Invariants.InputPreserves | server.js:336-338 | `input` keeps the invariant |
| Invariants.StepPreserves | server.js:308-414 | every handler, timer callback and tick keeps the invariant |
| Invariants.RunPreserves | server.js:308-414 | any run from a consistent session stays consistent |
| Invariants.ReachableConsistent | server.js:203-208 | every reachable session is consistent, so every HP stays within [0, 1000] |
| Invariants.WinnerIsNamed | server.js:226 | in a reachable round the win message names the sole survivor, never '???' |
| Scenarios.CountsDown | server.js:142-143 | while the count stays positive, each firing only lowers it by one |
| Scenarios.LastFiringStarts | server.js:144-147 | the firing at count one starts the round with everyone at full HP and clears the interval |
| Scenarios.FiringsStartRound | server.js:141-148 | as many firings as the count start a round, whatever the state was |
| Scenarios.CountdownReachesRound | server.js:137-157 | after `start_game`, four firings leave the count at one and the fifth starts the round at full HP |
| Scenarios.DisconnectKeepsCountdown | server.js:346-358 | one of two players leaving the countdown returns to the lobby with the interval still live |
| Scenarios.DesertedCountdownStillStarts | server.js:185-201 | that interval later starts a round for the single player left |
| Scenarios.WalkoverWins | server.js:346-358 | a player leaving a round with one other alive gives that player `game_over` and a 5 s reset; with no other player left the lobby is restored at once |
| Scenarios.FirstKillShieldsAttacker | server.js:204-245 | a lethal first strike on the last opponent ends the round with `game_over` naming the attacker as the third entry after the pair starts, a 5 s reset and the round timer cleared; the victim's strike back does nothing |
| Scenarios.LethalStrike | server.js:203-236 | a killing blow on the last opponent zeroes its HP, ends the round, names the attacker in `game_over` and schedules the win reset |
| Scenarios.HarmlessStrikeBack | server.js:204 | a strike after the round ended changes no HP, state or timer and only appends to the log |
| Escape.EntityOf | public/game.js:44-50 | each of the five special characters becomes an entity starting with '&'; others stay |
| Escape.EscapeHtml | public/game.js:42-52 | the result has no raw `< > " '`, is no shorter, and equals a text with no special characters |
| Escape.UnescapeEntity | public/game.js:44-50 | decoding undoes one escaped character in front of any text |
| Escape.UnescapeEscape | public/game.js:42-52 | escaping loses nothing: decoding it gives the original text back |
| Escape.EscapeAppend | public/game.js:43 | escaping works character by character: it distributes over concatenation |
| Cheat.LowerChar | public/game.js:368 | lower-cases ASCII capitals and leaves every other character |
| Cheat.LastWindow | public/game.js:369 | at most the last eight characters, as a suffix |
| Cheat.ListenStep | public/game.js:367-374 | fires exactly when the window spells the code; then the buffer is empty, otherwise it is the window |
| Cheat.CheatStep | public/game.js:367-374 | the buffer never exceeds eight characters and never rests on the code |
| Cheat.Feed | public/game.js:367-374 | a run of key presses gives one flag per key; after at least one key the buffer holds at most eight characters, is empty after a firing key, and never rests on the code |
| Cheat.TypingPrefix | public/game.js:367-374 | typing a proper prefix of the code fires nothing and leaves the buffer ending in it |
| Cheat.TypingPrefixStep | public/game.js:367-374 | one more letter of a proper prefix keeps every flag silent and the buffer ending in the longer prefix |
| Cheat.TypingNextLetter | public/game.js:367-374 | a letter of the code other than the last, typed after the ones before it, does not fire |
| Cheat.TypingCodeFires | public/game.js:367-374 | typing the code fires exactly on its last letter, whatever the buffer held, and empties it |
| Cheat.TypingLastLetter | public/game.js:367-374 | the code's last letter, typed after the others, fires and empties the buffer |
| Cheat.DeeznutsFires | public/game.js:370-373 | typing d-e-e-z-n-u-t-s sends `spawn_nuts` on the final 's' only |
| Keys.FlagOf | public/game.js:384-387 | w, a, s, d drive up, left, down, right; nothing else does |
| Keys.KeyDown | public/game.js:384-388 | the key's flag is set, the others kept, and `input` is sent exactly when the controls changed |
| Keys.KeyUp | public/game.js:392-396 | the key's flag is cleared, the others kept, and `input` is sent exactly when the controls changed |
| Keys.RepeatIsSilent | public/game.js:384-388 | an auto-repeated keydown sends nothing |
| Keys.ReleaseUndoesPress | public/game.js:384-396 | pressing and releasing a key restores the controls and sends twice |
| Timer.NatText | public/game.js:279 | decimal text: digits only, no leading zero, one digit exactly below ten |
| Timer.ParseNatText | public/game.js:279 | reading the text back gives the number |
| Timer.Pad2 | public/game.js:279 | left-pads with zeros to two characters, longer texts unchanged |
| Timer.TimerText | public/game.js:277-279 | minutes, a colon, and exactly two digits of seconds |
| Timer.Remaining | public/game.js:275-276 | the milliseconds left, clamped at zero |
| Timer.PaddedSeconds | public/game.js:277-279 | the two-digit seconds read back as the seconds |
| Timer.ClockReadsBack | public/game.js:275-279 | `min:ss` reads back as whole minutes and seconds below 60 adding up to the whole seconds left |
| Client.LobbyOverlay | public/game.js:54-68 | in-progress text for a spectator in a round; lobby texts by head count; an `ended` text kept; otherwise empty |
| Client.HandleGameState | public/game.js:416-444 | state and roster from the message; spectator exactly when absent from it during a round; the overlay follows |
| Client.ClockOf | public/game.js:412 | a zero or missing deadline reads as none |
| Client.OnGameState | public/game.js:407-414 | parked before the socket has an id; otherwise deadline recorded and message handled |
| Client.OnConnect | public/game.js:399-405 | the parked message is handled and dropped, and the deadline is left as it was |
| Client.Listed | public/game.js:139-144 | a bare array is the player list; otherwise its `players` field, or none |
| Client.KeyById | public/game.js:145-147 | every key maps to an entry with that id, and every entry's id is a key |
| Client.KeyByIdKeys | public/game.js:145-147 | an id is a key exactly when some entry carries it |
| Client.KeyByIdLastWins | public/game.js:145-147 | of several entries with one id the last wins |
| Client.OnPlayerList | public/game.js:135-154 | the roster is rebuilt from the payload alone; the overlay follows the new head count and an `ended` banner stays |
| Client.Banner | public/game.js:353 | `Winner: …!` around the escaped name, which decodes to the name, or `Draw!` |
| Client.BannerIsNoLobbyText | public/game.js:353 | no banner reads like a lobby text |
| Client.OnGameOver | public/game.js:347-355 | `ended`, no longer a spectator, banner shown |
| Client.KeyDownSends | public/game.js:377-388 | `spawn_nuts` first, `start_game`, then the controls last, each exactly when due |
| Client.OnKeyDown | public/game.js:376-389 | the controls and the cheat buffer advance; round state, roster and overlay stay |
| Client.KeyDownEmits | public/game.js:376-389 | `start_game` exactly on f/F in the lobby with two known players; `input` exactly when the controls changed, carrying them |
| Client.OnKeyUp | public/game.js:390-397 | `input` with the new controls exactly when they changed; the cheat buffer untouched |
| Client.TimerLabel | public/game.js:274-279 | a clock exactly when a deadline is known during a round, reading back as the time left |
| Session.RoundEndsAt | server.js:331 | a joiner gets a deadline exactly when a non-zero round start time is recorded, 5 minutes after it |
| Wire.Entries | server.js:327-332 | the client sees every player, keyed as on the server, by id and name |
| Wire.MessageOf | server.js:177-181 | only round messages are `game_state`; countdown and lobby messages carry no roster and no deadline |
| Wire.CountdownShowsInProgress | public/game.js:416-419 | every ready client takes itself for a spectator during the countdown |
| Wire.RunningShowsArena | public/game.js:412-419 | at round start a listed client is a player with no overlay and a clock; others spectate |
| Wire.LobbyAfterReset | public/game.js:57-61 | back in the lobby the client asks for two players until the player list arrives |
| Wire.LateJoinerSpectates | server.js:318-333 | a mid-round joiner is a spectator on both sides |
| Wire.LobbyJoinerPlays | server.js:313-333 | a lobby joiner is listed and is no spectator |
| Wire.ReplayKeepsOldClock | public/game.js:399-414 | a parked message is handled as it would have been at once, except that its deadline is lost |
| Wire.LatestParkedWins | public/game.js:407-410 | only the latest parked message is replayed |
| Wire.BannerStaysUntilLobby | public/game.js:63-64 | the banner survives player lists, keys and an `ended` message; a lobby message replaces it |
| Wire.BannerShowsEntities | public/game.js:353 | a winner named `a&b` is announced as `a&amp;b` |

## Left out

- Matter.js physics is not modelled: body shapes, offsets, the world, arena borders and `Engine.update`. Removing joints from the world is modelled as emptying the ragdoll's joint list.
- `doBounce` velocity maths and its random spin are not modelled. A bounce is one `Physics(Bounce(pusher, pushed))` log entry, recorded when both bodies exist. It is not a socket emit.
- Spawn points are integer parameters in [100,700)×[100,500). `Math.random` and float coordinates are not modelled.
- `Date.now` is the `now` parameter. `setInterval`/`setTimeout` scheduling is replaced by explicit `Fire…` actions.
- `sim_state` carries only the set of ragdoll owners; float positions and angles are left out.
- The tick's forces are unit sign vectors. The force amount 0.0035 and the spin impulse 0.05 are scale factors and are left out.
- Socket.io, Express and HTTP bootstrap are left out. Object key order (`Object.values`) is not modelled: rosters are maps.
- Roster.Join: a payload is either a string or not. JavaScript truthiness of other values (numbers, objects, `{twitchToken}`) is folded into `NotText`, which the handler ignores.
- Roster.Truncate counts characters, not UTF-16 code units.
- The server has no `spawn_nuts` handler. The client's emit is recorded in `sent` and nothing else happens.
- Twitch login and the manual join button are not modelled. `USE_TWITCH_LOGIN` is fixed at true, so the button handler returns at once. The Twitch path sends an object, which `join` ignores.
- Canvas rendering, blood particles, HP bars and name drawing are not modelled. The HTML of the player list and the `can_start` line are not modelled either.
- The "Game starts in…" line that `handleGameState` writes into the player list is not modelled.
- Animation frame scheduling is not modelled.
- The lobby-screen timer (public/game.js:315-328) is not modelled. It is the same clock as `Client.TimerLabel`, drawn only in `countdown`.
- The timer colour thresholds are left out.
- Cheat.LowerChar: lower-cases ASCII letters only, not full Unicode `toLowerCase`.
- Cheat.LastWindow counts characters, not UTF-16 code units, so the kept buffer differs from `slice(-8)` after a key name outside the Basic Multilingual Plane; firing is unaffected because the code is ASCII.
- Server.Step: its own contract states only roster facts. What each handler does is stated on the handler, and what every handler keeps is stated by `Invariants.StepPreserves`.
- public/twitch.js is not part of this model. It is a presentation overlay whose only pure helper is a copy of `escapeHTML`.

=== FILE: base.dfy ===
/** Shared vocabulary of the arena: optional values, connection ids, points,
    the round state enumeration and a player's control vector. */
module Base {

  /** The conventional Some/None datatype, used where the JavaScript source
      reads a property that may be `undefined` or `null`. */
  datatype Option<+T> = None | Some(value: T) {

    /** The value, or `default` when absent (`x || default` on an object). */
    function GetOr(default: T): T {
      match this
      case Some(v) => v
      case None => default
    }
  }

  /** A socket connection identifier. */
  type Id = string

  /** An integer point in arena coordinates. */
  datatype Point = Point(x: int, y: int)

  /** The session-wide round state. */
  datatype GameState = Waiting | Countdown | Running | Ended

  /** The four booleans a client sends with `input`. */
  datatype Controls = Controls(up: bool, down: bool, left: bool, right: bool)

  /** What the server reads for a player that never sent `input` (`{}`). */
  const NoControls: Controls := Controls(false, false, false, false)

  /** JavaScript truthiness of an optional string: present and non-empty. */
  predicate Truthy(s: Option<string>) {
    s.Some? && s.value != ""
  }
}

=== FILE: cheat.dfy ===
/** The sliding cheat-code buffer of public/game.js: every key name is
    lower-cased and appended, only the last eight characters are kept, and
    the buffer firing `spawn_nuts` is emptied. */
module Cheat {

  /** The code the buffer listens for. */
  const Code: string := "deeznuts"

  /** How many characters the buffer keeps. */
  const Window: nat := 8

  /** `toLowerCase` on the ASCII letters. */
  function LowerChar(c: char): (r: char)
    ensures 'A' <= c <= 'Z' ==> r as int == c as int + 32
    ensures !('A' <= c <= 'Z') ==> r == c
  {
    if 'A' <= c <= 'Z' then (c as int + 32) as char else c
  }

  function Lower(key: string): (r: string)
    ensures |r| == |key|
    ensures forall i :: 0 <= i < |key| ==> r[i] == LowerChar(key[i])
  {
    seq(|key|, i requires 0 <= i < |key| => LowerChar(key[i]))
  }

  /** The last `Window` characters of `b` (`slice(-8)` once longer). */
  function LastWindow(b: string): (r: string)
    ensures |r| == if |b| > Window then Window else |b|
    ensures r == b[|b| - |r|..]
  {
    if |b| > Window then b[|b| - Window..] else b
  }

  /** One key press on a buffer listening for `code`: append the lowered
      key name, keep the last `Window` characters, and fire (emptying the
      buffer) when they spell `code`. */
  function ListenStep(code: string, buf: string, key: string): (r: (string, bool))
    ensures r.1 <==> LastWindow(buf + Lower(key)) == code
    ensures r.1 ==> r.0 == ""
    ensures !r.1 ==> r.0 == LastWindow(buf + Lower(key))
    ensures |r.0| <= Window
  {
    var b := LastWindow(buf + Lower(key));
    if b == code then ("", true) else (b, false)
  }

  /** `checkForDeeznutsCheat(key)`: the new buffer and whether `spawn_nuts`
      is sent. */
  function CheatStep(buf: string, key: string): (r: (string, bool))
    ensures r.1 <==> LastWindow(buf + Lower(key)) == Code
    ensures r.1 ==> r.0 == ""
    ensures !r.1 ==> r.0 == LastWindow(buf + Lower(key))
    ensures |r.0| <= Window && r.0 != Code
  {
    ListenStep(Code, buf, key)
  }

  /** The buffer after a run of key presses, and which presses fired. */
  function Feed(code: string, buf: string, keys: seq<string>): (r: (string, seq<bool>))
    ensures |r.1| == |keys|
    ensures keys != [] ==> |r.0| <= Window && (r.1[|keys| - 1] ==> r.0 == "")
    ensures keys != [] && code != "" ==> r.0 != code
    decreases |keys|
  {
    if keys == [] then (buf, [])
    else
      var prev := Feed(code, buf, keys[..|keys| - 1]);
      var step := ListenStep(code, prev.0, keys[|keys| - 1]);
      (step.0, prev.1 + [step.1])
  }

  /** A word typed as one single-character key name per letter. */
  function KeysOf(word: string): (keys: seq<string>)
    ensures |keys| == |word|
    ensures forall i :: 0 <= i < |word| ==> keys[i] == [word[i]]
  {
    seq(|word|, i requires 0 <= i < |word| => [word[i]])
  }

  /** What makes a code word reliable for the buffer: it fills the window, it
      is lower case, and its last letter occurs nowhere else in it. */
  predicate GoodCode(code: string) {
    && |code| == Window
    && (forall i :: 0 <= i < |code| ==> LowerChar(code[i]) == code[i])
    && (forall i :: 0 <= i < |code| - 1 ==> code[i] != code[|code| - 1])
  }

  lemma CodeIsGood()
    ensures GoodCode(Code)
  {
  }

  /** `b` ends in the first `n` letters of `code`. */
  predicate EndsWithPrefix(b: string, code: string, n: nat)
    requires n <= |code|
  {
    |b| >= n && forall i :: 0 <= i < n ==> b[|b| - n + i] == code[i]
  }

  /** Appending letter `n` to a text ending in the first `n - 1` letters. */
  lemma AppendNext(code: string, b: string, n: nat)
    requires 1 <= n <= |code| && EndsWithPrefix(b, code, n - 1)
    ensures EndsWithPrefix(b + [code[n - 1]], code, n)
  {
    var b1 := b + [code[n - 1]];
    forall i | 0 <= i < n
      ensures b1[|b1| - n + i] == code[i]
    {
      if i < n - 1 {
        assert b1[|b1| - n + i] == b[|b| - (n - 1) + i];
      }
    }
  }

  /** Cutting to the window keeps an ending that fits in it. */
  lemma WindowKeepsEnding(code: string, b: string, n: nat)
    requires n <= |code| && n <= Window && EndsWithPrefix(b, code, n)
    ensures EndsWithPrefix(LastWindow(b), code, n)
  {
    var w := LastWindow(b);
    forall i | 0 <= i < n
      ensures w[|w| - n + i] == code[i]
    {
      assert w[|w| - n + i] == b[|b| - |w| + (|w| - n + i)];
    }
  }

  /** A window ending in the first `n` letters of a good code is the code
      exactly when `n` is its length. */
  lemma WindowIsCode(code: string, w: string, n: nat)
    requires GoodCode(code) && 1 <= n <= |code| && |w| <= Window && EndsWithPrefix(w, code, n)
    ensures w == code <==> n == |code|
  {
    if n == |code| {
      assert forall i :: 0 <= i < |w| ==> w[i] == code[i];
    } else {
      assert w[|w| - 1] == code[n - 1];
      assert code[n - 1] != code[|code| - 1];
    }
  }

  /** Typing letter `n` (counting from 1) of a good code onto a buffer that
      ends in its first `n - 1` letters: the window then ends in the first
      `n`, and it is the code exactly when `n` is its length. */
  lemma TypeNext(code: string, b: string, n: nat)
    requires GoodCode(code) && 1 <= n <= |code| && EndsWithPrefix(b, code, n - 1)
    ensures EndsWithPrefix(LastWindow(b + Lower([code[n - 1]])), code, n)
    ensures LastWindow(b + Lower([code[n - 1]])) == code <==> n == |code|
  {
    assert Lower([code[n - 1]]) == [code[n - 1]];
    AppendNext(code, b, n);
    WindowKeepsEnding(code, b + [code[n - 1]], n);
    WindowIsCode(code, LastWindow(b + [code[n - 1]]), n);
  }

  /** Feeding one more key is one more step after the rest. */
  lemma FeedSnoc(code: string, buf: string, keys: seq<string>, key: string)
    ensures var prev := Feed(code, buf, keys);
            var step := ListenStep(code, prev.0, key);
            Feed(code, buf, keys + [key]) == (step.0, prev.1 + [step.1])
  {
    assert (keys + [key])[..|keys|] == keys;
  }

  /** The key names of `code[..n]` are those of `code[..n - 1]` and one more. */
  lemma KeysOfSnoc(code: string, n: nat)
    requires 1 <= n <= |code|
    ensures KeysOf(code[..n]) == KeysOf(code[..n - 1]) + [[code[n - 1]]]
  {
  }

  /** Typing the first `k` letters of a good code from any buffer fires
      nothing and leaves the buffer ending in those letters. */
  lemma {:induction false} TypingPrefix(code: string, buf: string, k: nat)
    requires GoodCode(code) && k < |code|
    ensures var r := Feed(code, buf, KeysOf(code[..k]));
            && (forall i :: 0 <= i < k ==> !r.1[i])
            && EndsWithPrefix(r.0, code, k)
  {
    if k > 0 {
      TypingPrefix(code, buf, k - 1);
      TypingPrefixStep(code, buf, k, Feed(code, buf, KeysOf(code[..k - 1])));
    }
  }

  /** The inductive step of `TypingPrefix`: one more letter of the prefix
      keeps every flag silent and the buffer ending in the longer prefix. */
  lemma TypingPrefixStep(code: string, buf: string, k: nat, prev: (string, seq<bool>))
    requires GoodCode(code) && 1 <= k < |code|
    requires prev == Feed(code, buf, KeysOf(code[..k - 1]))
    requires (forall i :: 0 <= i < k - 1 ==> !prev.1[i]) && EndsWithPrefix(prev.0, code, k - 1)
    ensures var r := Feed(code, buf, KeysOf(code[..k]));
            && (forall i :: 0 <= i < k ==> !r.1[i])
            && EndsWithPrefix(r.0, code, k)
  {
    var r := Feed(code, buf, KeysOf(code[..k]));
    assert r.1 == prev.1 + [false] && EndsWithPrefix(r.0, code, k) by {
      TypingNextLetter(code, buf, k, prev);
    }
    assert |prev.1| == k - 1;
    forall i | 0 <= i < k
      ensures !r.1[i]
    {
      if i < k - 1 {
        assert r.1[i] == prev.1[i];
      }
    }
  }

  /** Letter `k` of a good code, typed after the first `k - 1`, does not fire
      and leaves the buffer ending in the first `k`. */
  lemma TypingNextLetter(code: string, buf: string, k: nat, prev: (string, seq<bool>))
    requires GoodCode(code) && 1 <= k < |code|
    requires prev == Feed(code, buf, KeysOf(code[..k - 1]))
    requires EndsWithPrefix(prev.0, code, k - 1)
    ensures var r := Feed(code, buf, KeysOf(code[..k]));
            && r.1 == prev.1 + [false]
            && EndsWithPrefix(r.0, code, k)
  {
    var keys := KeysOf(code[..k - 1]);
    assert KeysOf(code[..k]) == keys + [[code[k - 1]]] by {
      KeysOfSnoc(code, k);
    }
    var step := ListenStep(code, prev.0, [code[k - 1]]);
    assert !step.1 && EndsWithPrefix(step.0, code, k) by {
      TypeNext(code, prev.0, k);
    }
    FeedSnoc(code, buf, keys, [code[k - 1]]);
  }

  /** Typing a good code fires exactly on its last letter, whatever the
      buffer held before, and leaves the buffer empty. */
  lemma TypingCodeFires(code: string, buf: string)
    requires GoodCode(code)
    ensures var r := Feed(code, buf, KeysOf(code));
            && r.1[|code| - 1]
            && (forall i :: 0 <= i < |code| - 1 ==> !r.1[i])
            && r.0 == ""
  {
    var k := |code| - 1;
    TypingPrefix(code, buf, k);
    var prev := Feed(code, buf, KeysOf(code[..k]));
    TypingLastLetter(code, buf, prev);
    FiresLast(prev.1);
  }

  /** The last letter of a good code, typed after the others, fires and
      empties the buffer. */
  lemma TypingLastLetter(code: string, buf: string, prev: (string, seq<bool>))
    requires GoodCode(code)
    requires prev == Feed(code, buf, KeysOf(code[..|code| - 1]))
    requires EndsWithPrefix(prev.0, code, |code| - 1)
    ensures Feed(code, buf, KeysOf(code)) == ("", prev.1 + [true])
  {
    var k := |code| - 1;
    var keys := KeysOf(code[..k]);
    assert KeysOf(code) == keys + [[code[k]]] by {
      KeysOfSnoc(code, |code|);
      assert code[..|code|] == code;
    }
    assert ListenStep(code, prev.0, [code[k]]) == ("", true) by {
      TypeNext(code, prev.0, |code|);
    }
    FeedSnoc(code, buf, keys, [code[k]]);
  }

  /** A run of silent presses followed by a firing one. */
  lemma FiresLast(p: seq<bool>)
    requires forall i :: 0 <= i < |p| ==> !p[i]
    ensures (p + [true])[|p|] && forall i :: 0 <= i < |p| ==> !(p + [true])[i]
  {
  }

  /** Typing d-e-e-z-n-u-t-s sends `spawn_nuts` on the final 's' and on no
      earlier key, whatever was typed before. */
  lemma DeeznutsFires(buf: string)
    ensures var r := Feed(Code, buf, KeysOf(Code));
            && r.1[7] && (forall i :: 0 <= i < 7 ==> !r.1[i]) && r.0 == ""
  {
    CodeIsGood();
    TypingCodeFires(Code, buf);
  }
}

=== FILE: client.dfy ===
/** The browser side of public/game.js, without the canvas: what the client
    remembers about the round, how each socket message and key event changes
    it, and what it sends back. */
module Client {
  import opened Base
  import Escape
  import Cheat
  import Keys
  import Timer

  const InProgressText: string := "Game in progress, please wait"
  /** The opening both lobby texts share. */
  const LobbyOpening: string := "Waiting for players, "
  const NeedTwoText: string := LobbyOpening + "minimum 2 players needed to start game"
  const PressFText: string := LobbyOpening + "press F to start"
  const DrawText: string := "Draw!"
  const WinnerPrefix: string := "Winner: "

  /** One roster entry as the server serialises it. */
  datatype PlayerEntry = PlayerEntry(id: Id, username: string)

  /** A `game_state` payload; absent properties are `None`. */
  datatype GameStateMsg = GameStateMsg(
    state: GameState,
    players: Option<map<Id, PlayerEntry>>,
    countdown: Option<int>,
    roundEndsAt: Option<int>)

  /** A `player_list` payload: a bare array, or an object with optional
      `players` and `spectators` arrays. */
  datatype PlayerListMsg =
    | Bare(list: seq<PlayerEntry>)
    | Split(players: Option<seq<PlayerEntry>>, spectators: Option<seq<PlayerEntry>>)

  /** What the client sends to the server. */
  datatype ClientEmit = SpawnNuts | StartGame | Input(controls: Controls)

  /** The client's module-level variables. `socketId` is `socket.id`, set by
      the transport when the connection opens; `sent` is everything emitted
      so far, oldest first. */
  datatype ClientState = ClientState(
    gameState: GameState,
    allPlayers: map<Id, PlayerEntry>,
    spectator: bool,
    overlay: string,
    gotSocketId: bool,
    socketId: Option<Id>,
    pending: Option<GameStateMsg>,
    roundEndsAt: Option<int>,
    controls: Controls,
    cheatBuffer: string,
    sent: seq<ClientEmit>)

  /** The page as loaded. */
  const Boot: ClientState :=
    ClientState(Waiting, map[], false, "", false, None, None, None, NoControls, "", [])

  predicate InRound(g: GameState) {
    g == Running || g == Countdown
  }

  /** Whether a `game_state` is handled at once rather than parked. */
  predicate Ready(cs: ClientState) {
    cs.gotSocketId && Truthy(cs.socketId)
  }

  /** The fields no socket message about the round touches. */
  predicate SameInputs(a: ClientState, b: ClientState) {
    && b.controls == a.controls && b.cheatBuffer == a.cheatBuffer && b.sent == a.sent
    && b.gotSocketId == a.gotSocketId && b.socketId == a.socketId
  }

  /** `updateLobbyOverlay`: the text laid over the canvas, given the round
      state, the spectator flag, how many players are known and the text
      shown now. */
  function LobbyOverlay(g: GameState, spectator: bool, known: nat, current: string): (r: string)
    ensures spectator && InRound(g) ==> r == InProgressText
    ensures !spectator && InRound(g) ==> r == ""
    ensures g == Waiting ==> (r == NeedTwoText <==> known < 2) && (r == PressFText <==> known >= 2)
    ensures g == Ended ==> r == current
  {
    if spectator && InRound(g) then InProgressText
    else if g == Waiting then (if known < 2 then NeedTwoText else PressFText)
    else if g == Ended && current != "" then current
    else ""
  }

  /** `handleGameState` with the client's own id `me`: the round state and
      the roster are taken from the message (an absent roster is empty), the
      client is a spectator exactly when it is not in that roster while a
      round is counting down or running, and the overlay is chosen again. */
  function HandleGameState(cs: ClientState, msg: GameStateMsg, me: Id): (r: ClientState)
    ensures r.gameState == msg.state
    ensures r.allPlayers == msg.players.GetOr(map[])
    ensures r.spectator <==> me !in r.allPlayers && InRound(msg.state)
    ensures InRound(msg.state) ==> (r.overlay == InProgressText <==> me !in r.allPlayers)
    ensures InRound(msg.state) ==> (r.overlay == "" <==> me in r.allPlayers)
    ensures msg.state == Waiting ==> (r.overlay == PressFText <==> |r.allPlayers| >= 2)
    ensures msg.state == Waiting ==> (r.overlay == NeedTwoText <==> |r.allPlayers| < 2)
    ensures msg.state == Ended ==> r.overlay == cs.overlay
    ensures SameInputs(cs, r) && r.pending == cs.pending && r.roundEndsAt == cs.roundEndsAt
  {
    var all := msg.players.GetOr(map[]);
    var spec := me !in all && InRound(msg.state);
    cs.(gameState := msg.state, allPlayers := all, spectator := spec,
        overlay := LobbyOverlay(msg.state, spec, |all|, cs.overlay))
  }

  /** `stateObj.roundEndsAt || null`: a zero deadline reads as none. */
  function ClockOf(endsAt: Option<int>): (r: Option<int>)
    ensures r.Some? <==> endsAt.Some? && endsAt.value != 0
    ensures r.Some? ==> r == endsAt
  {
    if endsAt.Some? && endsAt.value != 0 then endsAt else None
  }

  /** The `game_state` listener: before the socket has an id the message is
      parked (replacing any parked one); otherwise the deadline is recorded
      and the message handled. */
  function OnGameState(cs: ClientState, msg: GameStateMsg): (r: ClientState)
    ensures !Ready(cs) ==> r == cs.(pending := Some(msg))
    ensures Ready(cs) ==> r.roundEndsAt == ClockOf(msg.roundEndsAt) && r.pending == cs.pending
    ensures Ready(cs) ==> r.gameState == msg.state && r.allPlayers == msg.players.GetOr(map[])
    ensures Ready(cs) ==> (r.spectator <==> cs.socketId.value !in r.allPlayers && InRound(msg.state))
    ensures SameInputs(cs, r)
  {
    if !Ready(cs) then cs.(pending := Some(msg))
    else HandleGameState(cs.(roundEndsAt := ClockOf(msg.roundEndsAt)), msg, cs.socketId.value)
  }

  /** The `connect` listener: the socket now has id `id`, and a parked
      `game_state` is handled and dropped. The parked message's deadline is
      not recorded. */
  function OnConnect(cs: ClientState, id: Id): (r: ClientState)
    ensures r.gotSocketId && r.socketId == Some(id) && r.pending == None
    ensures r.roundEndsAt == cs.roundEndsAt
    ensures cs.pending.None? ==> r == cs.(gotSocketId := true, socketId := Some(id))
    ensures cs.pending.Some? ==> r.gameState == cs.pending.value.state
    ensures cs.pending.Some? ==> r.allPlayers == cs.pending.value.players.GetOr(map[])
    ensures cs.pending.Some? ==> (r.spectator <==> id !in r.allPlayers && InRound(r.gameState))
    ensures r.controls == cs.controls && r.cheatBuffer == cs.cheatBuffer && r.sent == cs.sent
  {
    var c1 := cs.(gotSocketId := true, socketId := Some(id));
    match cs.pending
    case None => c1
    case Some(m) => HandleGameState(c1, m, id).(pending := None)
  }

  /** The player array of a `player_list` payload (`data.players || []`). */
  function Listed(msg: PlayerListMsg): seq<PlayerEntry> {
    match msg
    case Bare(list) => list
    case Split(players, _) => players.GetOr([])
  }

  /** Entry `i` is the last one in `arr` carrying its id. */
  predicate LastWithId(arr: seq<PlayerEntry>, i: int) {
    0 <= i < |arr| && forall j :: i < j < |arr| ==> arr[j].id != arr[i].id
  }

  /** `allPlayers[p.id] = p` for each entry in order. */
  function KeyById(arr: seq<PlayerEntry>): (m: map<Id, PlayerEntry>)
    ensures forall id :: id in m ==> m[id].id == id
    ensures forall i :: 0 <= i < |arr| ==> arr[i].id in m
    decreases |arr|
  {
    if arr == [] then map[]
    else
      var last := arr[|arr| - 1];
      KeyById(arr[..|arr| - 1])[last.id := last]
  }

  /** Some entry of `arr` carries `id`. */
  predicate Carries(arr: seq<PlayerEntry>, id: Id) {
    exists i :: 0 <= i < |arr| && arr[i].id == id
  }

  /** An id is a key of the rebuilt roster exactly when some entry carries
      it. */
  lemma {:induction false} KeyByIdKeys(arr: seq<PlayerEntry>)
    ensures forall id :: id in KeyById(arr) <==> Carries(arr, id)
    decreases |arr|
  {
    if arr != [] {
      var n := |arr| - 1;
      var front := arr[..n];
      KeyByIdKeys(front);
      forall id | id in KeyById(arr)
        ensures Carries(arr, id)
      {
        if id != arr[n].id {
          assert Carries(front, id);
          var i :| 0 <= i < |front| && front[i].id == id;
          assert arr[i] == front[i];
        }
      }
    }
  }

  /** Of several entries with one id, the last wins. */
  lemma {:induction false} KeyByIdLastWins(arr: seq<PlayerEntry>)
    ensures forall i :: LastWithId(arr, i) ==> KeyById(arr)[arr[i].id] == arr[i]
    decreases |arr|
  {
    if arr != [] {
      var n := |arr| - 1;
      var front := arr[..n];
      KeyByIdLastWins(front);
      forall i | LastWithId(arr, i)
        ensures KeyById(arr)[arr[i].id] == arr[i]
      {
        if i < n {
          assert arr[i] == front[i];
          assert LastWithId(front, i);
        }
      }
    }
  }

  /** The `player_list` listener: the known roster is rebuilt from the
      payload alone, and the overlay chosen again for the new head count. */
  function OnPlayerList(cs: ClientState, msg: PlayerListMsg): (r: ClientState)
    ensures r.allPlayers == KeyById(Listed(msg))
    ensures forall id :: id in r.allPlayers ==> r.allPlayers[id].id == id
    ensures cs.gameState == Waiting ==> (r.overlay == PressFText <==> |r.allPlayers| >= 2)
    ensures cs.gameState == Ended ==> r.overlay == cs.overlay
    ensures InRound(cs.gameState) ==> r.overlay == (if cs.spectator then InProgressText else "")
    ensures r.gameState == cs.gameState && r.spectator == cs.spectator && r.pending == cs.pending
    ensures SameInputs(cs, r) && r.roundEndsAt == cs.roundEndsAt
  {
    var all := KeyById(Listed(msg));
    cs.(allPlayers := all, overlay := LobbyOverlay(cs.gameState, cs.spectator, |all|, cs.overlay))
  }

  /** The `game_over` banner: the escaped winner name framed as
      `Winner: …!`, or `Draw!` when there is no winner. */
  function Banner(winner: Option<string>): (b: string)
    ensures b != ""
    ensures !Truthy(winner) ==> b == DrawText
    ensures Truthy(winner) ==> |b| > |WinnerPrefix| && b[..|WinnerPrefix|] == WinnerPrefix && b[|b| - 1] == '!'
    ensures Truthy(winner) ==> Escape.Unescape(b[|WinnerPrefix|..|b| - 1]) == winner.value
  {
    if Truthy(winner) then
      var name := Escape.EscapeHtml(winner.value);
      var b := WinnerPrefix + name + "!";
      assert b[|WinnerPrefix|..|b| - 1] == name;
      Escape.UnescapeEscape(winner.value);
      b
    else DrawText
  }

  /** No banner reads like one of the lobby texts. */
  lemma BannerIsNoLobbyText(w: Option<string>)
    ensures Banner(w) != NeedTwoText && Banner(w) != PressFText
  {
    assert NeedTwoText[1] == 'a';
    assert PressFText[1] == 'a';
    if Truthy(w) {
      var b := Banner(w);
      assert b[..|WinnerPrefix|][1] == 'i';
    }
  }

  /** The `game_over` listener. */
  function OnGameOver(cs: ClientState, winner: Option<string>): (r: ClientState)
    ensures r.gameState == Ended && !r.spectator && r.overlay == Banner(winner)
    ensures r.allPlayers == cs.allPlayers && r.pending == cs.pending && r.roundEndsAt == cs.roundEndsAt
    ensures SameInputs(cs, r)
  {
    cs.(gameState := Ended, spectator := false, overlay := Banner(winner))
  }

  /** Whether a keydown asks the server to start: `f` or `F` in the lobby
      with at least two known players. */
  predicate StartWanted(cs: ClientState, key: string) {
    cs.gameState == Waiting && (key == "f" || key == "F") && |cs.allPlayers| >= 2
  }

  /** The emits of one keydown, in the order the listener sends them. */
  function KeyDownSends(nuts: bool, start: bool, changed: bool, c: Controls): (e: seq<ClientEmit>)
    ensures SpawnNuts in e <==> nuts
    ensures StartGame in e <==> start
    ensures Input(c) in e <==> changed
    ensures forall i :: 0 <= i < |e| && e[i].Input? ==> e[i].controls == c
    ensures nuts ==> e[0] == SpawnNuts
    ensures changed ==> e[|e| - 1] == Input(c)
    ensures |e| <= 3
  {
    (if nuts then [SpawnNuts] else []) + (if start then [StartGame] else []) + (if changed then [Input(c)] else [])
  }

  /** The `keydown` listener: the cheat buffer sees every key, and the
      emits of the key are appended to what was sent. */
  function OnKeyDown(cs: ClientState, key: string): (r: ClientState)
    ensures r.controls == Keys.KeyDown(cs.controls, key).0
    ensures r.cheatBuffer == Cheat.CheatStep(cs.cheatBuffer, key).0
    ensures r.sent == cs.sent + KeyDownSends(Cheat.CheatStep(cs.cheatBuffer, key).1, StartWanted(cs, key),
                                             Keys.KeyDown(cs.controls, key).1, r.controls)
    ensures r.gameState == cs.gameState && r.allPlayers == cs.allPlayers && r.overlay == cs.overlay
    ensures r.spectator == cs.spectator && r.pending == cs.pending && r.roundEndsAt == cs.roundEndsAt
  {
    var cheat := Cheat.CheatStep(cs.cheatBuffer, key);
    var press := Keys.KeyDown(cs.controls, key);
    cs.(cheatBuffer := cheat.0, controls := press.0,
        sent := cs.sent + KeyDownSends(cheat.1, StartWanted(cs, key), press.1, press.0))
  }

  /** What one keydown sends, in order: `spawn_nuts` first when the cheat
      buffer fires, `start_game` exactly when a start is wanted, and the new
      controls last, exactly when they changed. */
  lemma KeyDownEmits(cs: ClientState, key: string)
    ensures var r := OnKeyDown(cs, key);
            var e := r.sent[|cs.sent|..];
            && r.sent[..|cs.sent|] == cs.sent
            && (StartGame in e <==> StartWanted(cs, key))
            && (SpawnNuts in e <==> Cheat.CheatStep(cs.cheatBuffer, key).1)
            && (Input(r.controls) in e <==> r.controls != cs.controls)
            && (SpawnNuts in e ==> e[0] == SpawnNuts)
            && (Input(r.controls) in e ==> e[|e| - 1] == Input(r.controls))
            && (forall i :: 0 <= i < |e| && e[i].Input? ==> e[i].controls == r.controls)
  {
    var r := OnKeyDown(cs, key);
    var press := Keys.KeyDown(cs.controls, key);
    var e := KeyDownSends(Cheat.CheatStep(cs.cheatBuffer, key).1, StartWanted(cs, key), press.1, press.0);
    assert r.sent[..|cs.sent|] == cs.sent && r.sent[|cs.sent|..] == e;
  }

  /** The `keyup` listener: the controls are sent when a flag was cleared. */
  function OnKeyUp(cs: ClientState, key: string): (r: ClientState)
    ensures |r.sent| >= |cs.sent| && r.sent[..|cs.sent|] == cs.sent
    ensures r.controls != cs.controls ==> r.sent[|cs.sent|..] == [Input(r.controls)]
    ensures r.controls == cs.controls ==> r.sent == cs.sent
    ensures r.controls == Keys.KeyUp(cs.controls, key).0
    ensures r.cheatBuffer == cs.cheatBuffer
    ensures r.gameState == cs.gameState && r.allPlayers == cs.allPlayers && r.overlay == cs.overlay
    ensures r.spectator == cs.spectator && r.pending == cs.pending && r.roundEndsAt == cs.roundEndsAt
  {
    var press := Keys.KeyUp(cs.controls, key);
    var e := if press.1 then [Input(press.0)] else [];
    assert (cs.sent + e)[..|cs.sent|] == cs.sent && (cs.sent + e)[|cs.sent|..] == e;
    cs.(controls := press.0, sent := cs.sent + e)
  }

  /** The round clock drawn over the arena at time `now`: shown while a
      deadline is known and a round is counting down or running, and then
      reading back as the whole minutes and seconds left. */
  function TimerLabel(cs: ClientState, now: int): (r: Option<string>)
    ensures r.Some? <==> cs.roundEndsAt.Some? && cs.roundEndsAt.value != 0 && InRound(cs.gameState)
    ensures r.Some? ==> var ms := Timer.Remaining(cs.roundEndsAt.value, now);
                        Timer.ParseClock(r.value) == Some((ms / 60000, (ms / 1000) % 60))
  {
    if cs.roundEndsAt.Some? && cs.roundEndsAt.value != 0 && InRound(cs.gameState) then
      Timer.ClockReadsBack(cs.roundEndsAt.value, now);
      Some(Timer.TimerText(cs.roundEndsAt.value, now))
    else None
  }
}

=== FILE: combat.dfy ===
/** The combat resolver of server.js: `applyDamage` and the
    `collisionStart` handler, which turns collision pairs into blood,
    damage in both directions, bounces and eliminations. */
module Combat {
  import opened Base
  import opened HitModel
  import opened Ragdoll
  import opened Session
  import opened Round

  /** HP after subtracting `dmg`, clamped at zero. */
  function Clamped(hp: int, dmg: nat): (r: int)
    ensures r >= 0
    ensures hp >= 0 ==> r <= hp
    ensures r == 0 <==> hp <= dmg
    ensures r > 0 ==> r == hp - dmg
  {
    if hp - dmg < 0 then 0 else hp - dmg
  }

  /** The gate of `applyDamage`: running, HP present and non-zero, target not
      already eliminated. */
  predicate CanBeDamaged(s: Session, id: Id) {
    s.state == Running && id in s.hp && s.hp[id] != 0 && !IsEliminated(s, id)
  }

  /** Whether `dmg` dealt to `id` ends a round: `applyDamage` lands, the hit
      is lethal, and at most one id is left with HP above zero. */
  predicate EndsRound(s: Session, id: Id, dmg: nat) {
    CanBeDamaged(s, id) && s.hp[id] <= dmg && |AliveIds(s.hp[id := 0])| <= 1
  }

  /** Marks `id` eliminated (if a player) and empties its ragdoll's joints
      (if it has one). */
  function Eliminate(s: Session, id: Id): (t: Session)
    ensures id in s.players ==> id in t.players && t.players[id].eliminated
    ensures t.players.Keys == s.players.Keys && t.stickmen.Keys == s.stickmen.Keys
    ensures forall o :: o in t.players && o != id ==> t.players[o] == s.players[o]
    ensures id in s.players ==> t.players[id] == s.players[id].(eliminated := true)
    ensures id in s.stickmen ==> t.stickmen[id] == s.stickmen[id].(constraints := [])
    ensures forall o :: o in t.stickmen && o != id ==> t.stickmen[o] == s.stickmen[o]
    ensures t.hp == s.hp && t.state == s.state && t.spectators == s.spectators
    ensures t.inputs == s.inputs && t.log == s.log && t.intervals == s.intervals
  {
    var players := if id in s.players then s.players[id := s.players[id].(eliminated := true)] else s.players;
    var men := if id in s.stickmen then s.stickmen[id := s.stickmen[id].(constraints := [])] else s.stickmen;
    s.(players := players, stickmen := men)
  }

  /** The HP table after `id` loses `dmg`, clamped at zero. */
  function Wound(s: Session, id: Id, dmg: nat): (t: Session)
    requires id in s.hp
    ensures t.hp.Keys == s.hp.Keys && t.hp[id] == Clamped(s.hp[id], dmg)
    ensures forall o :: o in s.hp && o != id ==> t.hp[o] == s.hp[o]
    ensures t.players == s.players && t.stickmen == s.stickmen && t.state == s.state
    ensures t.spectators == s.spectators && t.inputs == s.inputs && t.log == s.log
  {
    s.(hp := s.hp[id := Clamped(s.hp[id], dmg)])
  }

  /** `applyDamage(id, dmg)`. */
  function ApplyDamage(s: Session, id: Id, dmg: nat): (t: Session)
    ensures !CanBeDamaged(s, id) ==> t == s
    ensures CanBeDamaged(s, id) ==> t.hp == s.hp[id := Clamped(s.hp[id], dmg)]
    ensures t.state == Ended <==> s.state == Ended || EndsRound(s, id, dmg)
    ensures forall o :: o != id ==> (IsEliminated(t, o) <==> IsEliminated(s, o))
    ensures t.hp.Keys == s.hp.Keys
    ensures t.players.Keys == s.players.Keys && t.stickmen.Keys == s.stickmen.Keys
    ensures forall o :: o in s.hp && o != id ==> t.hp[o] == s.hp[o]
    ensures CanBeDamaged(s, id) ==>
              && t.hp[id] >= 0
              && (s.hp[id] >= 0 ==> t.hp[id] <= s.hp[id])
              && (t.hp[id] == 0 <==> s.hp[id] <= dmg)
              && (t.hp[id] > 0 ==> t.hp[id] == s.hp[id] - dmg)
              && |t.log| > |s.log| && t.log[|s.log|] == Broadcast(PlayerHp(t.hp))
    ensures CanBeDamaged(s, id) && t.hp[id] > 0 ==>
              t.players == s.players && t.stickmen == s.stickmen && t.state == s.state
    ensures CanBeDamaged(s, id) && t.hp[id] == 0 ==>
              && (id in s.players ==> t.players[id].eliminated)
              && (id in s.stickmen ==> t.stickmen[id].constraints == [])
              && (t.state == Ended <==> |AliveIds(t.hp)| <= 1)
              && (t.state == Running <==> |AliveIds(t.hp)| >= 2)
    ensures t.spectators == s.spectators && t.inputs == s.inputs && t.intervals == s.intervals
    ensures forall o :: o in t.stickmen ==> t.stickmen[o] == s.stickmen[o].(constraints := t.stickmen[o].constraints)
    ensures t.state == s.state || t.state == Ended
    ensures s.state == Running ==> (t.state == Running || t.state == Ended)
    ensures CanBeDamaged(s, id) && !EndsRound(s, id, dmg) ==> t.log == s.log + [Broadcast(PlayerHp(t.hp))]
    ensures EndsRound(s, id, dmg) ==>
              && |AliveIds(t.hp)| <= 1
              && t.log == s.log + [Broadcast(PlayerHp(t.hp)), Broadcast(GameOver(WinnerOf(t)))]
              && !t.roundTimerArmed && t.roundStartTime.None?
              && t.pendingResets == s.pendingResets
                   + multiset{if |AliveIds(t.hp)| == 1 then WIN_RESET_MS else DRAW_RESET_MS}
    ensures !EndsRound(s, id, dmg) ==>
              && t.pendingResets == s.pendingResets && t.roundTimerArmed == s.roundTimerArmed
              && t.roundStartTime == s.roundStartTime
  {
    if !CanBeDamaged(s, id) then s
    else
      var s1 := Announce(Wound(s, id, dmg), PlayerHp(Wound(s, id, dmg).hp));
      if s1.hp[id] == 0 then CheckForWinner(Eliminate(s1, id))
      else s1
  }

  /** Whether both parts of a hit still have a ragdoll body to push. */
  predicate BodiesPresent(men: map<Id, Stickman>, attacker: CollisionBody, defender: CollisionBody)
    requires attacker.playerId.Some? && defender.playerId.Some?
  {
    && attacker.playerId.value in men && attacker.partName in men[attacker.playerId.value].parts
    && defender.playerId.value in men && defender.partName in men[defender.playerId.value].parts
  }

  /** The bounce after a damaging hit, applied to the world only when both
      owners still have a ragdoll (`doBounce` returns early on a missing
      body). It is recorded in the log but sent on no socket. */
  function BounceBetween(s: Session, attacker: CollisionBody, defender: CollisionBody): (t: Session)
    requires attacker.playerId.Some? && defender.playerId.Some?
    ensures t.hp == s.hp && t.state == s.state && t.players == s.players && t.stickmen == s.stickmen
    ensures |t.log| == |s.log| + 1 <==> BodiesPresent(s.stickmen, attacker, defender)
    ensures |t.log| == |s.log| ==> t == s
    ensures |t.log| > |s.log| ==> t.log == s.log + [t.log[|s.log|]] && t.log[|s.log|].Physics?
  {
    var a := PartBody(s.stickmen, attacker.playerId.value, attacker.partName);
    var b := PartBody(s.stickmen, defender.playerId.value, defender.partName);
    if a.Some? && b.Some? then Apply(s, Bounce(a.value, b.value)) else s
  }

  /** The damage `attacker` deals on `defender` by their labels, or 0 when a
      label is outside the tables. */
  function PairDamage(attacker: CollisionBody, defender: CollisionBody): (d: nat)
    ensures d > 0 <==> attacker.partName in PartNames && defender.partName in PartNames
    ensures d > 0 ==> d == PartDamage(ParsePart(defender.partName).value, ParsePart(attacker.partName).value)
  {
    match (AreaByName(defender.partName), AttackTypeByName(attacker.partName))
    case (Some(area), Some(atk)) => HitDamage(area, atk)
    case _ => 0
  }

  /** One damage direction of the handler: `attacker` strikes `defender`. */
  function Strike(s: Session, attacker: CollisionBody, defender: CollisionBody): (t: Session)
    requires attacker.playerId.Some? && defender.playerId.Some?
    ensures PairDamage(attacker, defender) == 0 ==> t == s
    ensures PairDamage(attacker, defender) > 0 ==>
              t.hp == ApplyDamage(s, defender.playerId.value, PairDamage(attacker, defender)).hp
    ensures t.hp.Keys == s.hp.Keys
    ensures forall o :: o in s.hp && o != defender.playerId.value ==> t.hp[o] == s.hp[o]
    ensures t.players.Keys == s.players.Keys && t.stickmen.Keys == s.stickmen.Keys
    ensures t.spectators == s.spectators && t.inputs == s.inputs && t.intervals == s.intervals
    ensures forall o :: o in t.stickmen ==> t.stickmen[o] == s.stickmen[o].(constraints := t.stickmen[o].constraints)
    ensures t.state == s.state || t.state == Ended
    ensures PairDamage(attacker, defender) > 0 && CanBeDamaged(s, defender.playerId.value) ==>
              t.hp == s.hp[defender.playerId.value := Clamped(s.hp[defender.playerId.value], PairDamage(attacker, defender))]
    ensures !(PairDamage(attacker, defender) > 0 && CanBeDamaged(s, defender.playerId.value)) ==>
              t.hp == s.hp && t.state == s.state
    ensures t.state == Ended <==>
              s.state == Ended || (PairDamage(attacker, defender) > 0 && EndsRound(s, defender.playerId.value, PairDamage(attacker, defender)))
    ensures forall o :: o != defender.playerId.value ==> (IsEliminated(t, o) <==> IsEliminated(s, o))
    ensures forall o :: o != defender.playerId.value ==>
              (CanBeDamaged(t, o) <==>
                 CanBeDamaged(s, o) && !(PairDamage(attacker, defender) > 0 && EndsRound(s, defender.playerId.value, PairDamage(attacker, defender))))
    ensures PairDamage(attacker, defender) > 0 ==>
              var d := ApplyDamage(s, defender.playerId.value, PairDamage(attacker, defender));
              && t == d.(log := t.log)
              && (BodiesPresent(s.stickmen, attacker, defender) ==>
                    t.log == d.log + [Physics(Bounce(s.stickmen[attacker.playerId.value].parts[attacker.partName],
                                                     s.stickmen[defender.playerId.value].parts[defender.partName]))])
              && (!BodiesPresent(s.stickmen, attacker, defender) ==> t.log == d.log)
  {
    var dmg := PairDamage(attacker, defender);
    if dmg > 0 then
      BounceBetween(ApplyDamage(s, defender.playerId.value, dmg), attacker, defender)
    else s
  }

  /** Whether the handler skips a pair: an owner tag missing, a self
      collision, or an owner already eliminated when the pair comes up. */
  predicate Skipped(s: Session, a: CollisionBody, b: CollisionBody) {
    || !Truthy(a.playerId) || !Truthy(b.playerId) || a.playerId == b.playerId
    || IsEliminated(s, a.playerId.value) || IsEliminated(s, b.playerId.value)
  }

  /** Whether the first direction of a pair, `a` striking `b`, ends the
      round (and so shields `a` from the strike back). */
  predicate FirstStrikeEnds(s: Session, a: CollisionBody, b: CollisionBody)
    requires b.playerId.Some?
  {
    PairDamage(a, b) > 0 && EndsRound(s, b.playerId.value, PairDamage(a, b))
  }

  /** One pair of the `collisionStart` loop: blood first, then B is struck by
      A, then A is struck by B. */
  function ResolvePair(s: Session, a: CollisionBody, b: CollisionBody): (t: Session)
    ensures Skipped(s, a, b) ==> t == s
    ensures !Skipped(s, a, b) ==> |t.log| > |s.log| && t.log[|s.log|] == Broadcast(BloodParticle(a, b))
    ensures t.hp.Keys == s.hp.Keys
    ensures !Skipped(s, a, b) && b.playerId.value in s.hp ==>
              t.hp[b.playerId.value] ==
                if PairDamage(a, b) > 0 && CanBeDamaged(s, b.playerId.value)
                then Clamped(s.hp[b.playerId.value], PairDamage(a, b))
                else s.hp[b.playerId.value]
    ensures !Skipped(s, a, b) && a.playerId.value in s.hp ==>
              t.hp[a.playerId.value] ==
                if PairDamage(b, a) > 0 && CanBeDamaged(s, a.playerId.value) && !FirstStrikeEnds(s, a, b)
                then Clamped(s.hp[a.playerId.value], PairDamage(b, a))
                else s.hp[a.playerId.value]
    ensures !Skipped(s, a, b) && FirstStrikeEnds(s, a, b) ==> t.state == Ended
    ensures !Skipped(s, a, b) ==> Bounces(t.log) == Bounces(s.log) + StrikeBounces(s, a, b) + StrikeBounces(s, b, a)
    ensures forall o :: o in s.hp && o != a.playerId.GetOr("") && o != b.playerId.GetOr("") ==> t.hp[o] == s.hp[o]
    ensures t.players.Keys == s.players.Keys && t.stickmen.Keys == s.stickmen.Keys
    ensures t.spectators == s.spectators && t.inputs == s.inputs && t.intervals == s.intervals
    ensures forall o :: o in t.stickmen ==> t.stickmen[o] == s.stickmen[o].(constraints := t.stickmen[o].constraints)
    ensures t.state == s.state || t.state == Ended
  {
    if Skipped(s, a, b) then s
    else
      var s1 := Announce(s, BloodParticle(a, b));
      var s2 := Strike(s1, a, b);
      assert s2.log[|s.log|] == s1.log[|s.log|] by { StrikeExtendsLog(s1, a, b); }
      StrikeExtendsLog(s2, b, a);
      FirstStrikeHp(s, a, b);
      StrikeBackHp(s, a, b);
      FirstStrikeEndsPair(s, a, b);
      PairBounceCount(s, a, b);
      Strike(s2, b, a)
  }

  /** The defender's HP after both strikes of a pair: as the first strike
      leaves it, since the strike back only hits the attacker. */
  lemma FirstStrikeHp(s: Session, a: CollisionBody, b: CollisionBody)
    requires !Skipped(s, a, b)
    ensures b.playerId.value in s.hp ==>
              Strike(Strike(Announce(s, BloodParticle(a, b)), a, b), b, a).hp[b.playerId.value] ==
                if PairDamage(a, b) > 0 && CanBeDamaged(s, b.playerId.value)
                then Clamped(s.hp[b.playerId.value], PairDamage(a, b))
                else s.hp[b.playerId.value]
  {
    var s1 := Announce(s, BloodParticle(a, b));
    assert CanBeDamaged(s1, b.playerId.value) == CanBeDamaged(s, b.playerId.value);
  }

  /** The attacker's HP after both strikes of a pair: as the strike back
      leaves it, unless the first strike ended the round. */
  lemma StrikeBackHp(s: Session, a: CollisionBody, b: CollisionBody)
    requires !Skipped(s, a, b)
    ensures a.playerId.value in s.hp ==>
              Strike(Strike(Announce(s, BloodParticle(a, b)), a, b), b, a).hp[a.playerId.value] ==
                if PairDamage(b, a) > 0 && CanBeDamaged(s, a.playerId.value) && !FirstStrikeEnds(s, a, b)
                then Clamped(s.hp[a.playerId.value], PairDamage(b, a))
                else s.hp[a.playerId.value]
  {
    var s1 := Announce(s, BloodParticle(a, b));
    assert CanBeDamaged(s1, a.playerId.value) == CanBeDamaged(s, a.playerId.value);
    assert EndsRound(s1, b.playerId.value, PairDamage(a, b)) == EndsRound(s, b.playerId.value, PairDamage(a, b));
  }

  /** A first strike that ends the round leaves the pair's outcome `ended`. */
  lemma FirstStrikeEndsPair(s: Session, a: CollisionBody, b: CollisionBody)
    requires !Skipped(s, a, b)
    ensures FirstStrikeEnds(s, a, b) ==> Strike(Strike(Announce(s, BloodParticle(a, b)), a, b), b, a).state == Ended
  {
    var s1 := Announce(s, BloodParticle(a, b));
    assert EndsRound(s1, b.playerId.value, PairDamage(a, b)) == EndsRound(s, b.playerId.value, PairDamage(a, b));
  }

  /** The bounces of both strikes of a pair: one for each damaging
      direction whose parts have a body, even a strike back that the first
      blow has made harmless. */
  lemma PairBounceCount(s: Session, a: CollisionBody, b: CollisionBody)
    requires !Skipped(s, a, b)
    ensures Bounces(Strike(Strike(Announce(s, BloodParticle(a, b)), a, b), b, a).log) ==
              Bounces(s.log) + StrikeBounces(s, a, b) + StrikeBounces(s, b, a)
  {
    var s1 := Announce(s, BloodParticle(a, b));
    var s2 := Strike(s1, a, b);
    BouncesSnoc(s.log, Broadcast(BloodParticle(a, b)));
    StrikeBounceCount(s1, a, b);
    StrikeBounceCount(s2, b, a);
    assert BodiesPresent(s2.stickmen, b, a) == BodiesPresent(s.stickmen, b, a);
  }

  /** A strike only appends to the log. */
  lemma StrikeExtendsLog(s: Session, attacker: CollisionBody, defender: CollisionBody)
    requires attacker.playerId.Some? && defender.playerId.Some?
    ensures |Strike(s, attacker, defender).log| >= |s.log|
    ensures Strike(s, attacker, defender).log[..|s.log|] == s.log
  {
    var dmg := PairDamage(attacker, defender);
    if dmg > 0 {
      var s1 := ApplyDamage(s, defender.playerId.value, dmg);
      ApplyDamageExtendsLog(s, defender.playerId.value, dmg);
    }
  }

  /** `applyDamage` only appends to the log. */
  lemma ApplyDamageExtendsLog(s: Session, id: Id, dmg: nat)
    ensures |ApplyDamage(s, id, dmg).log| >= |s.log|
    ensures ApplyDamage(s, id, dmg).log[..|s.log|] == s.log
  {
  }

  /** `applyDamage` renames nobody, so the name a win would report is the
      same before and after it. */
  lemma ApplyDamageKeepsNames(s: Session, id: Id, dmg: nat, o: Id)
    ensures WinnerName(ApplyDamage(s, id, dmg), o) == WinnerName(s, o)
  {
    if CanBeDamaged(s, id) {
      var h := Announce(Wound(s, id, dmg), PlayerHp(Wound(s, id, dmg).hp));
      if h.hp[id] == 0 {
        var e := Eliminate(h, id);
        assert ApplyDamage(s, id, dmg).players == e.players;
        assert o in e.players ==> e.players[o].username == s.players[o].username;
      }
    }
  }

  /** How many bounces a log records. */
  function Bounces(log: seq<Emit>): (n: nat)
    ensures n <= |log|
  {
    if log == [] then 0
    else Bounces(log[..|log| - 1]) + (if log[|log| - 1].Physics? then 1 else 0)
  }

  /** One more entry counts as a bounce exactly when it is a physics entry. */
  lemma BouncesSnoc(log: seq<Emit>, e: Emit)
    ensures Bounces(log + [e]) == Bounces(log) + (if e.Physics? then 1 else 0)
  {
    assert (log + [e])[..|log|] == log;
  }

  /** The bounces one damage direction causes: one when the hit deals damage
      and both parts have a body, whether or not `applyDamage` lands. */
  function StrikeBounces(s: Session, attacker: CollisionBody, defender: CollisionBody): nat
    requires attacker.playerId.Some? && defender.playerId.Some?
  {
    if PairDamage(attacker, defender) > 0 && BodiesPresent(s.stickmen, attacker, defender) then 1 else 0
  }

  /** `applyDamage` sends messages but bounces nothing. */
  lemma ApplyDamageBounces(s: Session, id: Id, dmg: nat)
    ensures Bounces(ApplyDamage(s, id, dmg).log) == Bounces(s.log)
  {
    var t := ApplyDamage(s, id, dmg);
    if CanBeDamaged(s, id) {
      var h := Broadcast(PlayerHp(t.hp));
      BouncesSnoc(s.log, h);
      if EndsRound(s, id, dmg) {
        assert t.log == (s.log + [h]) + [Broadcast(GameOver(WinnerOf(t)))];
        BouncesSnoc(s.log + [h], Broadcast(GameOver(WinnerOf(t))));
      }
    }
  }

  /** A damaging hit is followed by exactly one bounce when both parts have
      a body, and by none otherwise. */
  lemma {:induction false} StrikeBounceCount(s: Session, attacker: CollisionBody, defender: CollisionBody)
    requires attacker.playerId.Some? && defender.playerId.Some?
    ensures Bounces(Strike(s, attacker, defender).log) == Bounces(s.log) + StrikeBounces(s, attacker, defender)
  {
    var dmg := PairDamage(attacker, defender);
    if dmg > 0 {
      var d := ApplyDamage(s, defender.playerId.value, dmg);
      ApplyDamageBounces(s, defender.playerId.value, dmg);
      if BodiesPresent(s.stickmen, attacker, defender) {
        BouncesSnoc(d.log, Strike(s, attacker, defender).log[|d.log|]);
      }
    }
  }

  /** The pairs of one `collisionStart` event, in order. */
  function ResolveAll(s: Session, pairs: seq<(CollisionBody, CollisionBody)>): (t: Session)
    decreases |pairs|
    ensures t.hp.Keys == s.hp.Keys
    ensures (forall o :: o in s.hp ==> s.hp[o] >= 0) ==> forall o :: o in t.hp ==> 0 <= t.hp[o] <= s.hp[o]
    ensures t.players.Keys == s.players.Keys && t.stickmen.Keys == s.stickmen.Keys
    ensures t.spectators == s.spectators && t.inputs == s.inputs
    ensures forall o :: o in t.stickmen ==> t.stickmen[o] == s.stickmen[o].(constraints := t.stickmen[o].constraints)
    ensures t.state == s.state || t.state == Ended
  {
    if pairs == [] then s
    else
      var s1 := ResolvePair(s, pairs[0].0, pairs[0].1);
      ResolvePairLowersHp(s, pairs[0].0, pairs[0].1);
      ResolveAll(s1, pairs[1..])
  }

  /** One pair never raises an HP and never drives one below zero. */
  lemma ResolvePairLowersHp(s: Session, a: CollisionBody, b: CollisionBody)
    ensures (forall o :: o in s.hp ==> s.hp[o] >= 0) ==>
              forall o :: o in s.hp ==> 0 <= ResolvePair(s, a, b).hp[o] <= s.hp[o]
  {
    if !Skipped(s, a, b) && forall o :: o in s.hp ==> s.hp[o] >= 0 {
      var s1 := Announce(s, BloodParticle(a, b));
      var s2 := Strike(s1, a, b);
      StrikeLowersHp(s1, a, b);
      StrikeLowersHp(s2, b, a);
    }
  }

  /** One strike never raises an HP and never drives one below zero. */
  lemma StrikeLowersHp(s: Session, attacker: CollisionBody, defender: CollisionBody)
    requires attacker.playerId.Some? && defender.playerId.Some?
    requires forall o :: o in s.hp ==> s.hp[o] >= 0
    ensures forall o :: o in s.hp ==> 0 <= Strike(s, attacker, defender).hp[o] <= s.hp[o]
  {
  }

  /** The `collisionStart` handler: nothing unless `running` when the event
      arrives; then every pair in order. */
  function OnCollision(s: Session, pairs: seq<(CollisionBody, CollisionBody)>): (t: Session)
    ensures s.state != Running ==> t == s
    ensures t.hp.Keys == s.hp.Keys
    ensures (forall o :: o in s.hp ==> s.hp[o] >= 0) ==> forall o :: o in t.hp ==> 0 <= t.hp[o] <= s.hp[o]
    ensures t.state == s.state || t.state == Ended
  {
    if s.state != Running then s else ResolveAll(s, pairs)
  }
}

=== FILE: escape.dfy ===
/** `escapeHTML` of public/game.js: the five HTML-special characters are
    replaced by entities, every other character is copied. */
module Escape {

  /** The characters `escapeHTML` rewrites. */
  predicate Special(c: char) {
    c == '&' || c == '<' || c == '>' || c == '"' || c == '\''
  }

  /** The replacement of one character. */
  function EntityOf(c: char): (r: string)
    ensures Special(c) ==> |r| > 1 && r[0] == '&'
    ensures !Special(c) ==> r == [c]
  {
    match c
    case '&' => "&amp;"
    case '<' => "&lt;"
    case '>' => "&gt;"
    case '"' => "&quot;"
    case '\'' => "&#39;"
    case _ => [c]
  }

  /** Whether `r` holds none of the characters that open a tag or close an
      attribute value. */
  predicate Inert(r: string) {
    forall i :: 0 <= i < |r| ==> r[i] != '<' && r[i] != '>' && r[i] != '"' && r[i] != '\''
  }

  /** `escapeHTML(str)`, character by character from the left. */
  function EscapeHtml(s: string): (r: string)
    ensures Inert(r)
    ensures |r| >= |s|
    ensures (forall i :: 0 <= i < |s| ==> !Special(s[i])) ==> r == s
    decreases |s|
  {
    if s == [] then []
    else
      var head := EntityOf(s[0]);
      var tail := EscapeHtml(s[1..]);
      assert Inert(head);
      head + tail
  }

  /** The decoding a browser applies to the five entities (and only them). */
  function Unescape(r: string): (s: string)
    decreases |r|
  {
    if r == [] then []
    else if |r| >= 5 && r[..5] == "&amp;" then "&" + Unescape(r[5..])
    else if |r| >= 4 && r[..4] == "&lt;" then "<" + Unescape(r[4..])
    else if |r| >= 4 && r[..4] == "&gt;" then ">" + Unescape(r[4..])
    else if |r| >= 6 && r[..6] == "&quot;" then "\"" + Unescape(r[6..])
    else if |r| >= 5 && r[..5] == "&#39;" then "'" + Unescape(r[5..])
    else [r[0]] + Unescape(r[1..])
  }

  /** Decoding leaves a character that opens no entity as it is. */
  lemma UnescapePlain(c: char, rest: string)
    requires c != '&'
    ensures Unescape([c] + rest) == [c] + Unescape(rest)
  {
    var r := [c] + rest;
    assert r[0] == c && r[1..] == rest;
    assert |r| >= 4 ==> r[..4][0] == c;
    assert |r| >= 5 ==> r[..5][0] == c;
    assert |r| >= 6 ==> r[..6][0] == c;
  }

  /** The entity prefixes `r` could start with are told apart by their
      second character. */
  lemma OpensWith(r: string, second: char)
    requires |r| >= 4 && r[1] == second
    ensures |r| >= 5 && r[..5] == "&amp;" ==> second == 'a'
    ensures r[..4] == "&lt;" ==> second == 'l'
    ensures r[..4] == "&gt;" ==> second == 'g'
    ensures |r| >= 6 && r[..6] == "&quot;" ==> second == 'q'
  {
    assert r[..4][1] == second;
    if |r| >= 5 { assert r[..5][1] == second; }
    if |r| >= 6 { assert r[..6][1] == second; }
  }

  /** Decoding undoes one escaped character in front of any text. */
  lemma UnescapeEntity(c: char, rest: string)
    ensures Unescape(EntityOf(c) + rest) == [c] + Unescape(rest)
  {
    var e := EntityOf(c);
    var r := e + rest;
    assert r[..|e|] == e && r[|e|..] == rest;
    match c
    case '&' =>
    case '<' => OpensWith(r, 'l');
    case '>' => OpensWith(r, 'g');
    case '"' => OpensWith(r, 'q');
    case '\'' => OpensWith(r, '#');
    case _ => UnescapePlain(c, rest);
  }

  /** Escaping loses nothing: the browser shows exactly the original text. */
  lemma {:induction false} UnescapeEscape(s: string)
    ensures Unescape(EscapeHtml(s)) == s
    decreases |s|
  {
    if s != [] {
      UnescapeEntity(s[0], EscapeHtml(s[1..]));
      UnescapeEscape(s[1..]);
      assert [s[0]] + s[1..] == s;
    }
  }

  /** Escaping distributes over concatenation, so it works character by
      character. */
  lemma {:induction false} EscapeAppend(a: string, b: string)
    ensures EscapeHtml(a + b) == EscapeHtml(a) + EscapeHtml(b)
    decreases |a|
  {
    if a != [] {
      assert (a + b)[0] == a[0];
      assert (a + b)[1..] == a[1..] + b;
      EscapeAppend(a[1..], b);
    } else {
      assert a + b == b;
    }
  }
}

=== FILE: hit_model.dfy ===
/** The hit model of server.js: which attack type and which vulnerable area
    each of the six ragdoll parts has, and the damage matrix. */
module HitModel {
  import opened Base

  /** The six parts of a ragdoll. `Torso` is the part labelled "body". */
  datatype Part = Head | Torso | LeftArm | RightArm | LeftLeg | RightLeg

  /** How a part hits. */
  datatype AttackType = Foot | Hand | Other

  /** Where a part is hit. */
  datatype Area = HeadArea | BodyArea | ArmArea | LegArea

  /** The label a part carries as `partName`. */
  function PartName(p: Part): string {
    match p
    case Head => "head"
    case Torso => "body"
    case LeftArm => "leftArm"
    case RightArm => "rightArm"
    case LeftLeg => "leftLeg"
    case RightLeg => "rightLeg"
  }

  /** The six labels: the keys of both lookup tables. */
  const PartNames: set<string> :=
    {"head", "body", "leftArm", "rightArm", "leftLeg", "rightLeg"}

  /** Recovers the part from its label; `None` for any other string. */
  function ParsePart(name: string): (r: Option<Part>)
    ensures r.Some? <==> name in PartNames
    ensures r.Some? ==> PartName(r.value) == name
  {
    if name == "head" then Some(Head)
    else if name == "body" then Some(Torso)
    else if name == "leftArm" then Some(LeftArm)
    else if name == "rightArm" then Some(RightArm)
    else if name == "leftLeg" then Some(LeftLeg)
    else if name == "rightLeg" then Some(RightLeg)
    else None
  }

  /** Labels are distinct: parsing a part's own label gives the part back. */
  lemma ParsePartName(p: Part)
    ensures ParsePart(PartName(p)) == Some(p)
    ensures PartName(p) in PartNames
  {
  }

  /** The `partAttackType` table. */
  function AttackTypeOf(p: Part): (t: AttackType)
    ensures t == Foot <==> p == LeftLeg || p == RightLeg
    ensures t == Hand <==> p == LeftArm || p == RightArm
    ensures t == Other <==> p == Head || p == Torso
  {
    match p
    case LeftLeg | RightLeg => Foot
    case LeftArm | RightArm => Hand
    case Head | Torso => Other
  }

  /** The `partVulnerableArea` table. */
  function VulnerableAreaOf(p: Part): (a: Area)
    ensures a == HeadArea <==> p == Head
    ensures a == BodyArea <==> p == Torso
    ensures a == ArmArea <==> p == LeftArm || p == RightArm
    ensures a == LegArea <==> p == LeftLeg || p == RightLeg
  {
    match p
    case Head => HeadArea
    case Torso => BodyArea
    case LeftArm | RightArm => ArmArea
    case LeftLeg | RightLeg => LegArea
  }

  /** `partAttackType[name]`, undefined for a label outside the table. */
  function AttackTypeByName(name: string): (r: Option<AttackType>)
    ensures r.Some? <==> name in PartNames
  {
    match ParsePart(name)
    case Some(p) => Some(AttackTypeOf(p))
    case None => None
  }

  /** `partVulnerableArea[name]`, undefined for a label outside the table. */
  function AreaByName(name: string): (r: Option<Area>)
    ensures r.Some? <==> name in PartNames
  {
    match ParsePart(name)
    case Some(p) => Some(VulnerableAreaOf(p))
    case None => None
  }

  /** The `hitMatrix`: damage dealt to `area` by an attack of type `atk`. */
  function HitDamage(area: Area, atk: AttackType): (d: nat)
    ensures 3 <= d <= 40
  {
    match area
    case HeadArea => (match atk case Foot => 40 case Hand => 25 case Other => 15)
    case BodyArea => (match atk case Foot => 20 case Hand => 15 case Other => 10)
    case ArmArea => (match atk case Foot => 10 case Hand => 5 case Other => 3)
    case LegArea => (match atk case Foot => 10 case Hand => 5 case Other => 3)
  }

  /** Damage the `attacker` part deals when it strikes the `defender` part. */
  function PartDamage(defender: Part, attacker: Part): (d: nat)
    ensures d > 0
    ensures defender == Head && AttackTypeOf(attacker) == Foot <==> d == 40
  {
    HitDamage(VulnerableAreaOf(defender), AttackTypeOf(attacker))
  }

  /** Every label in the table has exactly one attack type and exactly one
      area, the two lookups agree with the part-level tables, and the damage
      between any two labelled parts is positive. */
  lemma TablesTotalOnLabels(a: string, b: string)
    requires a in PartNames && b in PartNames
    ensures AttackTypeByName(a).Some? && AreaByName(b).Some?
    ensures exists pa: Part, pb: Part ::
              && PartName(pa) == a && PartName(pb) == b
              && AttackTypeByName(a) == Some(AttackTypeOf(pa))
              && AreaByName(b) == Some(VulnerableAreaOf(pb))
    ensures HitDamage(AreaByName(b).value, AttackTypeByName(a).value) > 0
  {
    var pa := ParsePart(a).value;
    var pb := ParsePart(b).value;
    assert PartName(pa) == a && PartName(pb) == b;
  }

  /** The matrix orders its entries: feet hit harder than hands, hands harder
      than anything else; heads suffer most, then the torso, then limbs. */
  lemma DamageOrdering(area: Area, atk: AttackType)
    ensures HitDamage(area, Foot) > HitDamage(area, Hand) > HitDamage(area, Other)
    ensures HitDamage(HeadArea, atk) > HitDamage(BodyArea, atk) > HitDamage(ArmArea, atk)
    ensures HitDamage(ArmArea, atk) == HitDamage(LegArea, atk)
  {
  }
}

=== FILE: invariants.dfy ===
/** Invariants every reachable server session keeps, and the proof that
    each handler preserves them. */
module Invariants {
  import opened Base
  import opened HitModel
  import opened Ragdoll
  import opened Session
  import opened Round
  import opened Combat
  import opened Roster
  import opened Tick
  import opened Server

  /** Every HP entry lies in [0, MAX_HP]. */
  ghost predicate HpInRange(s: Session) {
    forall id :: id in s.hp ==> 0 <= s.hp[id] <= MAX_HP
  }

  /** Roster records are keyed by their own id and carry a non-empty name. */
  ghost predicate RosterWellFormed(s: Session) {
    && (forall id :: id in s.players ==> s.players[id].id == id && s.players[id].username != "")
    && (forall id :: id in s.spectators ==> s.spectators[id].id == id && s.spectators[id].username != "")
  }

  /** Ragdolls belong to players and are owned by their key. */
  ghost predicate RagdollsOfPlayers(s: Session) {
    && s.stickmen.Keys <= s.players.Keys
    && forall id :: id in s.stickmen ==> s.stickmen[id].owner == id
  }

  /** An eliminated player's ragdoll has no joints left. */
  ghost predicate LimpWhenEliminated(s: Session) {
    forall id :: id in s.stickmen && IsEliminated(s, id) ==> s.stickmen[id].constraints == []
  }

  /** During a round (and after it ends) the players, the HP table and the
      ragdolls cover the same ids, and a player is eliminated exactly when
      its HP is 0. */
  ghost predicate RoundBookkeeping(s: Session) {
    (s.state == Running || s.state == Ended) ==>
      && (forall id :: id in s.players <==> id in s.hp)
      && (forall id :: id in s.players <==> id in s.stickmen)
      && (forall id :: id in s.players ==> (s.players[id].eliminated <==> s.hp[id] == 0))
  }

  ghost predicate Consistent(s: Session) {
    && HpInRange(s)
    && RosterWellFormed(s)
    && RagdollsOfPlayers(s)
    && LimpWhenEliminated(s)
    && RoundBookkeeping(s)
  }

  /** The invariant only looks at the round state, the roster, the ragdolls
      and the HP table. */
  lemma SameCore(s: Session, t: Session)
    requires Consistent(s) && CoreUnchanged(s, t)
    ensures Consistent(t)
  {
  }

  lemma InitialConsistent()
    ensures Consistent(Initial)
  {
  }

  lemma JoinPreserves(s: Session, id: Id, payload: JoinPayload)
    requires Consistent(s)
    ensures Consistent(Join(s, id, payload))
  {
    if payload.Text? && payload.text != "" {
      var e := Enrol(s, id, Truncate(payload.text));
      EnrolPreserves(s, id, Truncate(payload.text));
      SameCore(e, Welcome(e, id));
    }
  }

  lemma EnrolPreserves(s: Session, id: Id, name: string)
    requires Consistent(s) && name != ""
    ensures Consistent(Enrol(s, id, name))
  {
  }

  lemma StartRequestPreserves(s: Session)
    requires Consistent(s)
    ensures Consistent(StartRequest(s))
  {
  }

  lemma CheckForWinnerPreserves(s: Session)
    requires Consistent(s)
    ensures Consistent(CheckForWinner(s))
  {
  }

  lemma ResetPreserves(s: Session)
    requires HpInRange(s) && RosterWellFormed(s)
    ensures Consistent(ResetToLobby(s))
  {
    var t := ResetToLobby(s);
    forall id | id in t.players
      ensures t.players[id].id == id && t.players[id].username != ""
    {
      if id in s.spectators {
        assert t.players[id] == Player(s.spectators[id].id, s.spectators[id].username, false, None);
      }
    }
  }

  lemma DisconnectPreserves(s: Session, id: Id)
    requires Consistent(s)
    ensures Consistent(Disconnect(s, id))
  {
    var s0 := Remove(s, id);
    RemovePreserves(s, id);
    var s1 := AnnounceRoster(s0);
    SameCore(s0, s1);
    CheckForWinnerPreserves(s1);
    AbandonPreserves(CheckForWinner(s1));
  }

  lemma RemovePreserves(s: Session, id: Id)
    requires Consistent(s)
    ensures Consistent(Remove(s, id))
  {
  }

  lemma AbandonPreserves(s: Session)
    requires Consistent(s)
    ensures Consistent(AbandonIfDeserted(s))
  {
    if s.state != Waiting && |s.players| < MIN_PLAYERS {
      ResetPreserves(s);
    }
  }

  lemma StartGamePreserves(s: Session, now: int, spawns: map<Id, Point>)
    requires Consistent(s) && SpawnsFor(spawns, s.players.Keys)
    ensures Consistent(StartGame(s, now, spawns))
  {
    DeployPreserves(s, spawns);
    SameCore(Deploy(s, spawns), StartGame(s, now, spawns));
  }

  lemma DeployPreserves(s: Session, spawns: map<Id, Point>)
    requires Consistent(s) && SpawnsFor(spawns, s.players.Keys)
    ensures Consistent(Deploy(s, spawns))
  {
    DeployHp(s, spawns);
    DeployRoster(s, spawns);
    DeployRagdolls(s, spawns);
    DeployLimp(s, spawns);
    DeployBookkeeping(s, spawns);
  }

  lemma DeployHp(s: Session, spawns: map<Id, Point>)
    requires SpawnsFor(spawns, s.players.Keys)
    ensures HpInRange(Deploy(s, spawns))
  {
  }

  lemma DeployRoster(s: Session, spawns: map<Id, Point>)
    requires RosterWellFormed(s) && SpawnsFor(spawns, s.players.Keys)
    ensures RosterWellFormed(Deploy(s, spawns))
  {
  }

  lemma DeployRagdolls(s: Session, spawns: map<Id, Point>)
    requires RagdollsOfPlayers(s) && SpawnsFor(spawns, s.players.Keys)
    ensures RagdollsOfPlayers(Deploy(s, spawns))
  {
  }

  lemma DeployLimp(s: Session, spawns: map<Id, Point>)
    requires RagdollsOfPlayers(s) && SpawnsFor(spawns, s.players.Keys)
    ensures LimpWhenEliminated(Deploy(s, spawns))
  {
  }

  lemma DeployBookkeeping(s: Session, spawns: map<Id, Point>)
    requires RagdollsOfPlayers(s) && SpawnsFor(spawns, s.players.Keys)
    ensures RoundBookkeeping(Deploy(s, spawns))
  {
    var t := Deploy(s, spawns);
    assert forall id :: id in t.players <==> id in t.hp;
    assert forall id :: id in t.players <==> id in t.stickmen;
    forall id | id in t.players
      ensures t.players[id].eliminated <==> t.hp[id] == 0
    {
      assert !t.players[id].eliminated && t.hp[id] == MAX_HP;
    }
  }

  lemma CountdownTickPreserves(s: Session, h: nat, now: int, spawns: map<Id, Point>)
    requires Consistent(s) && SpawnsFor(spawns, s.players.Keys)
    ensures Consistent(FireCountdownTick(s, h, now, spawns))
  {
    if h in s.intervals {
      var s1 := Tock(s);
      SameCore(s, s1);
      if s1.countdown <= 0 {
        var s2 := ClearRoundInterval(s1);
        SameCore(s1, s2);
        StartGamePreserves(s2, now, spawns);
      }
    }
  }

  lemma TimeoutPreserves(s: Session)
    requires Consistent(s)
    ensures Consistent(FireRoundTimeout(s))
  {
  }

  lemma FireResetPreserves(s: Session, delay: nat)
    requires Consistent(s)
    ensures Consistent(FireReset(s, delay))
  {
    if delay in s.pendingResets {
      ResetPreserves(s.(pendingResets := s.pendingResets - multiset{delay}));
    }
  }

  lemma ApplyDamagePreserves(s: Session, id: Id, dmg: nat)
    requires Consistent(s)
    ensures Consistent(ApplyDamage(s, id, dmg))
  {
    if CanBeDamaged(s, id) {
      var w := Wound(s, id, dmg);
      var s1 := Announce(w, PlayerHp(w.hp));
      if s1.hp[id] == 0 {
        EliminatePreserves(s1, id);
        CheckForWinnerPreserves(Eliminate(s1, id));
      } else {
        WoundPreserves(s, id, dmg);
        SameCore(w, s1);
      }
    }
  }

  /** A wound that leaves HP above zero keeps the invariant. */
  lemma WoundPreserves(s: Session, id: Id, dmg: nat)
    requires Consistent(s) && CanBeDamaged(s, id) && Clamped(s.hp[id], dmg) > 0
    ensures Consistent(Wound(s, id, dmg))
  {
  }

  /** A fatal wound, once the player is eliminated, keeps the invariant. */
  lemma EliminatePreserves(s: Session, id: Id)
    requires HpInRange(s) && RosterWellFormed(s) && RagdollsOfPlayers(s) && LimpWhenEliminated(s)
    requires s.state == Running && id in s.hp && s.hp[id] == 0
    requires forall o :: o in s.players <==> o in s.hp
    requires forall o :: o in s.players <==> o in s.stickmen
    requires forall o :: o in s.players && o != id ==> (s.players[o].eliminated <==> s.hp[o] == 0)
    ensures Consistent(Eliminate(s, id))
  {
    var t := Eliminate(s, id);
    assert RosterWellFormed(t);
    assert RagdollsOfPlayers(t);
    assert LimpWhenEliminated(t);
    forall o | o in t.players
      ensures t.players[o].eliminated <==> t.hp[o] == 0
    {
      if o == id {
        assert t.players[o].eliminated;
      }
    }
  }

  lemma StrikePreserves(s: Session, attacker: CollisionBody, defender: CollisionBody)
    requires attacker.playerId.Some? && defender.playerId.Some?
    requires Consistent(s)
    ensures Consistent(Strike(s, attacker, defender))
  {
    var dmg := PairDamage(attacker, defender);
    if dmg > 0 {
      ApplyDamagePreserves(s, defender.playerId.value, dmg);
    }
  }

  lemma ResolvePairPreserves(s: Session, a: CollisionBody, b: CollisionBody)
    requires Consistent(s)
    ensures Consistent(ResolvePair(s, a, b))
  {
    if !Skipped(s, a, b) {
      var s1 := Announce(s, BloodParticle(a, b));
      StrikePreserves(s1, a, b);
      StrikePreserves(Strike(s1, a, b), b, a);
    }
  }

  lemma {:induction false} ResolveAllPreserves(s: Session, pairs: seq<(CollisionBody, CollisionBody)>)
    requires Consistent(s)
    ensures Consistent(ResolveAll(s, pairs))
    decreases |pairs|
  {
    if pairs != [] {
      ResolvePairPreserves(s, pairs[0].0, pairs[0].1);
      ResolveAllPreserves(ResolvePair(s, pairs[0].0, pairs[0].1), pairs[1..]);
    }
  }

  /** Every handler keeps the session consistent. */
  lemma StepPreserves(s: Session, a: Action)
    requires Consistent(s) && Admissible(s, a)
    ensures Consistent(Step(s, a))
  {
    match a
    case JoinMsg(id, payload) => JoinPreserves(s, id, payload);
    case InputMsg(id, c) => InputPreserves(s, id, c);
    case StartMsg => StartRequestPreserves(s);
    case DisconnectMsg(id) => DisconnectPreserves(s, id);
    case CountdownFires(h, now, spawns) => CountdownTickPreserves(s, h, now, spawns);
    case RoundTimeoutFires => TimeoutPreserves(s);
    case ResetFires(delay) => FireResetPreserves(s, delay);
    case Collisions(pairs) =>
      if s.state == Running {
        ResolveAllPreserves(s, pairs);
      }
    case TickFires => SameCore(s, RunTick(s).0);
  }

  lemma InputPreserves(s: Session, id: Id, c: Controls)
    requires Consistent(s)
    ensures Consistent(SetInput(s, id, c))
  {
  }

  /** Every session the server can reach from start-up is consistent. */
  lemma {:induction false} RunPreserves(s: Session, acts: seq<Action>)
    requires Consistent(s) && AdmissibleRun(s, acts)
    ensures Consistent(Run(s, acts))
    decreases |acts|
  {
    if acts != [] {
      StepPreserves(s, acts[0]);
      RunPreserves(Step(s, acts[0]), acts[1..]);
    }
  }

  lemma ReachableConsistent(acts: seq<Action>)
    requires AdmissibleRun(Initial, acts)
    ensures Consistent(Run(Initial, acts))
    ensures forall id :: id in Run(Initial, acts).hp ==> 0 <= Run(Initial, acts).hp[id] <= MAX_HP
  {
    InitialConsistent();
    RunPreserves(Initial, acts);
  }

  /** In a consistent session the win check never falls back to '???': the
      sole survivor is a player with a name. */
  lemma WinnerIsNamed(s: Session)
    requires Consistent(s) && s.state == Running && |AliveIds(s.hp)| == 1
    ensures exists w :: w in s.players && AliveIds(s.hp) == {w} &&
              CheckForWinner(s).log == s.log + [Broadcast(GameOver(Some(s.players[w].username)))]
  {
    var w := SoleMember(AliveIds(s.hp));
    assert w in s.players;
    assert WinnerOf(s) == Some(s.players[w].username);
  }
}

=== FILE: keys.dfy ===
/** Key-edge detection for the four movement controls of public/game.js:
    `w`, `a`, `s`, `d` set up, left, down, right on keydown and clear them
    on keyup, and `input` is sent only when a flag actually changed. */
module Keys {
  import opened Base

  datatype Flag = Up | Down | Left | Right

  /** The flag a key name drives. The comparison is case-sensitive. */
  function FlagOf(key: string): (f: Option<Flag>)
    ensures f == Some(Up) <==> key == "w"
    ensures f == Some(Left) <==> key == "a"
    ensures f == Some(Down) <==> key == "s"
    ensures f == Some(Right) <==> key == "d"
  {
    if key == "w" then Some(Up)
    else if key == "a" then Some(Left)
    else if key == "s" then Some(Down)
    else if key == "d" then Some(Right)
    else None
  }

  function Held(c: Controls, f: Flag): bool {
    match f
    case Up => c.up
    case Down => c.down
    case Left => c.left
    case Right => c.right
  }

  /** `c` with flag `f` set to `v` and the other three untouched. */
  function WithFlag(c: Controls, f: Flag, v: bool): (r: Controls)
    ensures Held(r, f) == v
    ensures forall g :: g != f ==> Held(r, g) == Held(c, g)
  {
    match f
    case Up => c.(up := v)
    case Down => c.(down := v)
    case Left => c.(left := v)
    case Right => c.(right := v)
  }

  /** A key changes its flag to `v` only when the flag is not already `v`. */
  function Press(c: Controls, key: string, v: bool): (r: (Controls, bool))
  {
    match FlagOf(key)
    case None => (c, false)
    case Some(f) => if Held(c, f) == v then (c, false) else (WithFlag(c, f, v), true)
  }

  /** The keydown half: the new controls and whether `input` is sent. */
  function KeyDown(c: Controls, key: string): (r: (Controls, bool))
    ensures FlagOf(key).None? ==> r == (c, false)
    ensures FlagOf(key).Some? ==> Held(r.0, FlagOf(key).value)
    ensures FlagOf(key).Some? ==> (r.1 <==> !Held(c, FlagOf(key).value))
    ensures forall g :: FlagOf(key) != Some(g) ==> Held(r.0, g) == Held(c, g)
    ensures r.1 <==> r.0 != c
  {
    Press(c, key, true)
  }

  /** The keyup half. */
  function KeyUp(c: Controls, key: string): (r: (Controls, bool))
    ensures FlagOf(key).None? ==> r == (c, false)
    ensures FlagOf(key).Some? ==> !Held(r.0, FlagOf(key).value)
    ensures FlagOf(key).Some? ==> (r.1 <==> Held(c, FlagOf(key).value))
    ensures forall g :: FlagOf(key) != Some(g) ==> Held(r.0, g) == Held(c, g)
    ensures r.1 <==> r.0 != c
  {
    Press(c, key, false)
  }

  /** Auto-repeat is silent: a second keydown of the same key sends nothing. */
  lemma RepeatIsSilent(c: Controls, key: string)
    ensures KeyDown(KeyDown(c, key).0, key) == (KeyDown(c, key).0, false)
  {
  }

  /** Releasing a key that was up before it was pressed restores the controls,
      and both edges send `input`. */
  lemma ReleaseUndoesPress(c: Controls, key: string)
    requires FlagOf(key).Some? && !Held(c, FlagOf(key).value)
    ensures KeyDown(c, key).1 && KeyUp(KeyDown(c, key).0, key) == (c, true)
  {
  }
}

=== FILE: ragdoll.dfy ===
/** The structure `makeStickman` builds: six tagged parts and five joints.
    Shapes, offsets and the physics world are not part of this model. */
module Ragdoll {
  import opened Base
  import opened HitModel

  /** The tag every part body carries: its owner and its label. */
  datatype BodyTag = BodyTag(playerId: Id, partName: string)

  /** A constraint joining two parts, with its stiffness and damping. */
  datatype Joint = Joint(bodyA: Part, bodyB: Part, stiffness: real, damping: real)

  /** One player's ragdoll: parts keyed by label, and the joints still in
      the world (emptied when the owner is eliminated). */
  datatype Stickman = Stickman(owner: Id, spawn: Point, parts: map<string, BodyTag>, constraints: seq<Joint>)

  /** The end of a joint that is not the torso. */
  function OtherEnd(j: Joint): Part {
    if j.bodyA == Torso then j.bodyB else j.bodyA
  }

  /** The five joints, in the order `makeStickman` creates them. */
  const Joints: seq<Joint> := [
    Joint(Head, Torso, 0.7, 0.5),
    Joint(Torso, LeftArm, 0.6, 0.3),
    Joint(Torso, RightArm, 0.6, 0.3),
    Joint(Torso, LeftLeg, 0.6, 0.3),
    Joint(Torso, RightLeg, 0.6, 0.3)
  ]

  /** A ragdoll whose six parts all carry `id` and their own label. */
  ghost predicate TaggedFor(st: Stickman, id: Id) {
    && st.owner == id
    && st.parts.Keys == PartNames
    && forall n :: n in st.parts ==> st.parts[n] == BodyTag(id, n)
  }

  /** Builds the ragdoll of `playerId` at `spawn`. */
  function MakeStickman(spawn: Point, playerId: Id): (r: Stickman)
    ensures TaggedFor(r, playerId) && r.spawn == spawn
    ensures |r.parts| == 6
    ensures |r.constraints| == 5
    ensures forall i :: 0 <= i < |r.constraints| ==>
              (r.constraints[i].bodyA == Torso) != (r.constraints[i].bodyB == Torso)
    ensures forall i, j :: 0 <= i < j < |r.constraints| ==>
              OtherEnd(r.constraints[i]) != OtherEnd(r.constraints[j])
  {
    var parts := map n | n in PartNames :: BodyTag(playerId, n);
    assert |parts.Keys| == 6 by {
      assert parts.Keys == PartNames;
    }
    Stickman(playerId, spawn, parts, Joints)
  }

  /** Every part other than the torso hangs on exactly one of the joints. */
  lemma EveryLimbJoined(spawn: Point, id: Id, p: Part)
    requires p != Torso
    ensures exists i :: 0 <= i < 5 && OtherEnd(MakeStickman(spawn, id).constraints[i]) == p
  {
    var cs := MakeStickman(spawn, id).constraints;
    match p
    case Head => assert OtherEnd(cs[0]) == p;
    case LeftArm => assert OtherEnd(cs[1]) == p;
    case RightArm => assert OtherEnd(cs[2]) == p;
    case LeftLeg => assert OtherEnd(cs[3]) == p;
    case RightLeg => assert OtherEnd(cs[4]) == p;
  }

  /** `ragdollFromPlayer`: the part body of `owner` labelled `name`, if that
      player still has a ragdoll and the label is one of its parts. */
  function PartBody(stickmen: map<Id, Stickman>, owner: Id, name: string): (r: Option<BodyTag>)
    ensures r.Some? <==> owner in stickmen && name in stickmen[owner].parts
  {
    if owner in stickmen && name in stickmen[owner].parts then Some(stickmen[owner].parts[name]) else None
  }
}

=== FILE: roster.dfy ===
/** The roster manager: the `join`, `input`, `start_game` and `disconnect`
    socket handlers of server.js. */
module Roster {
  import opened Base
  import opened Session
  import opened Round

  /** What a client may send with `join`: a string, or anything else (an
      object such as `{twitchToken}`, a number, null). */
  datatype JoinPayload = Text(text: string) | NotText

  /** `username.substring(0, 16)`. */
  function Truncate(name: string): (r: string)
    ensures |r| <= NAME_LIMIT && r <= name
    ensures |name| <= NAME_LIMIT ==> r == name
    ensures |name| > NAME_LIMIT ==> |r| == NAME_LIMIT && r == name[..NAME_LIMIT]
    ensures name != "" ==> r != ""
  {
    if |name| <= NAME_LIMIT then name else name[..NAME_LIMIT]
  }

  /** The roster half of an accepted `join`: the name joins the players
      while `waiting` and the spectators at any other time. */
  function Enrol(s: Session, id: Id, name: string): (t: Session)
    ensures s.state == Waiting ==>
              t.players == s.players[id := Player(id, name, false, None)] && t.spectators == s.spectators
    ensures s.state != Waiting ==>
              t.spectators == s.spectators[id := Spectator(id, name)] && t.players == s.players
    ensures t.state == s.state && t.hp == s.hp && t.stickmen == s.stickmen && t.inputs == s.inputs
    ensures t.log == s.log && t.countdown == s.countdown && t.roundStartTime == s.roundStartTime
  {
    if s.state == Waiting
    then s.(players := s.players[id := Player(id, name, false, None)])
    else s.(spectators := s.spectators[id := Spectator(id, name)])
  }

  /** What an accepted `join` sends: everyone gets the new roster and the
      start eligibility; the joining socket alone gets a snapshot of the
      round and the HP table. */
  function Welcome(s: Session, id: Id): (t: Session)
    ensures CoreUnchanged(s, t)
    ensures t.log == s.log + [
              Broadcast(PlayerListOf(s)),
              Broadcast(CanStart(|s.players| >= MIN_PLAYERS)),
              Direct(id, JoinSnapshot(s.state, s.players, s.countdown, RoundEndsAt(s))),
              Direct(id, PlayerHp(s.hp))]
    ensures t.intervals == s.intervals && t.roundTimerArmed == s.roundTimerArmed
    ensures t.pendingResets == s.pendingResets && t.countdown == s.countdown
  {
    s.(log := s.log + [
         Broadcast(PlayerListOf(s)),
         Broadcast(CanStart(|s.players| >= MIN_PLAYERS)),
         Direct(id, JoinSnapshot(s.state, s.players, s.countdown, RoundEndsAt(s))),
         Direct(id, PlayerHp(s.hp))])
  }

  /** The `join` handler for socket `id`. A falsy or non-string username is
      ignored; otherwise the name, cut to 16 characters, is enrolled and
      announced. */
  function Join(s: Session, id: Id, payload: JoinPayload): (t: Session)
    ensures payload.NotText? || payload.text == "" ==> t == s
    ensures payload.Text? && payload.text != "" ==> t == Welcome(Enrol(s, id, Truncate(payload.text)), id)
  {
    match payload
    case NotText => s
    case Text(raw) =>
      if raw == "" then s else Welcome(Enrol(s, id, Truncate(raw)), id)
  }

  /** An accepted join puts the cut-down name in exactly one of the two
      rosters, chosen by the round state, and sends the four join messages. */
  lemma JoinAnnounces(s: Session, id: Id, name: string)
    requires name != ""
    ensures var t := Join(s, id, Text(name));
            && (s.state == Waiting ==> id in t.players && t.players[id].username == Truncate(name)
                                       && t.spectators == s.spectators)
            && (s.state != Waiting ==> id in t.spectators && t.spectators[id].username == Truncate(name)
                                       && t.players == s.players)
            && t.state == s.state && t.hp == s.hp && t.stickmen == s.stickmen
            && t.log == s.log + [
              Broadcast(PlayerListOf(t)),
              Broadcast(CanStart(|t.players| >= MIN_PLAYERS)),
              Direct(id, JoinSnapshot(s.state, t.players, s.countdown, RoundEndsAt(s))),
              Direct(id, PlayerHp(s.hp))]
  {
  }

  /** The `input` handler: last write wins, from any socket. */
  function SetInput(s: Session, id: Id, controls: Controls): (t: Session)
    ensures id in t.inputs && t.inputs[id] == controls
    ensures forall o :: o != id ==> (o in t.inputs <==> o in s.inputs)
    ensures forall o :: o in s.inputs && o != id ==> t.inputs[o] == s.inputs[o]
    ensures t == s.(inputs := t.inputs)
  {
    s.(inputs := s.inputs[id := controls])
  }

  /** Whether `start_game` is honoured. */
  predicate CanStartNow(s: Session) {
    s.state == Waiting && |s.players| >= MIN_PLAYERS
  }

  /** The `start_game` handler: starts the countdown only from `waiting`
      with at least two players; otherwise a silent no-op. */
  function StartRequest(s: Session): (t: Session)
    ensures !CanStartNow(s) ==> t == s
    ensures CanStartNow(s) ==> t == StartCountdown(s)
    ensures t.state == Countdown <==> CanStartNow(s) || s.state == Countdown
  {
    if CanStartNow(s) then StartCountdown(s) else s
  }

  /** The bookkeeping part of `disconnect`: `id` leaves all five maps. */
  function Remove(s: Session, id: Id): (t: Session)
    ensures t.players == s.players - {id} && t.spectators == s.spectators - {id}
    ensures t.stickmen == s.stickmen - {id} && t.inputs == s.inputs - {id} && t.hp == s.hp - {id}
    ensures t.state == s.state && t.log == s.log
    ensures t.intervals == s.intervals && t.roundInterval == s.roundInterval && t.countdown == s.countdown
  {
    s.(players := s.players - {id}, spectators := s.spectators - {id},
       stickmen := s.stickmen - {id}, inputs := s.inputs - {id}, hp := s.hp - {id})
  }

  /** `broadcastPlayerList` followed by the `can_start` broadcast. */
  function AnnounceRoster(s: Session): (t: Session)
    ensures CoreUnchanged(s, t)
    ensures t.log == s.log + [Broadcast(PlayerListOf(s)), Broadcast(CanStart(|s.players| >= MIN_PLAYERS))]
    ensures t.intervals == s.intervals && t.roundInterval == s.roundInterval && t.countdown == s.countdown
  {
    s.(log := s.log + [Broadcast(PlayerListOf(s)), Broadcast(CanStart(|s.players| >= MIN_PLAYERS))])
  }

  /** The tail of `disconnect`: a round under way with fewer than two
      players left is abandoned and the lobby reset. */
  function AbandonIfDeserted(s: Session): (t: Session)
    ensures s.state == Waiting || |s.players| >= MIN_PLAYERS ==> t == s
    ensures s.state != Waiting && |s.players| < MIN_PLAYERS ==> t == ResetToLobby(s)
  {
    if s.state != Waiting && |s.players| < MIN_PLAYERS then ResetToLobby(s) else s
  }

  /** The first part of `disconnect`: forget `id`, re-broadcast the
      roster and run the win check. */
  function Leave(s: Session, id: Id): (t: Session)
    ensures t.players == s.players - {id} && t.spectators == s.spectators - {id}
    ensures t.stickmen == s.stickmen - {id} && t.inputs == s.inputs - {id} && t.hp == s.hp - {id}
    ensures t.intervals == s.intervals && t.roundInterval == s.roundInterval && t.countdown == s.countdown
  {
    CheckForWinner(AnnounceRoster(Remove(s, id)))
  }

  /** The win check inside `disconnect`: a round under way that the leaver
      leaves with at most one id alive ends with a `game_over` naming the
      survivor (or nobody) and a reset scheduled; otherwise the state stays
      and only the two roster broadcasts are sent. */
  lemma LeaveChecksWinner(s: Session, id: Id)
    ensures var t := Leave(s, id);
            && |t.log| >= |s.log| + 2
            && t.log[..|s.log| + 2] ==
                 s.log + [Broadcast(PlayerListOf(Remove(s, id))), Broadcast(CanStart(|s.players - {id}| >= MIN_PLAYERS))]
    ensures var t := Leave(s, id);
            (s.state == Running || s.state == Ended) && |AliveIds(s.hp - {id})| <= 1 ==>
              && t.state == Ended && !t.roundTimerArmed && t.roundStartTime.None?
              && |t.log| == |s.log| + 3 && t.log[|s.log| + 2] == Broadcast(GameOver(WinnerOf(Remove(s, id))))
              && t.pendingResets == s.pendingResets
                   + multiset{if |AliveIds(s.hp - {id})| == 1 then WIN_RESET_MS else DRAW_RESET_MS}
    ensures var t := Leave(s, id);
            !((s.state == Running || s.state == Ended) && |AliveIds(s.hp - {id})| <= 1) ==>
              && t.state == s.state && |t.log| == |s.log| + 2 && t.pendingResets == s.pendingResets
  {
    var r := Remove(s, id);
    var a := AnnounceRoster(r);
    var t := CheckForWinner(a);
    assert Leave(s, id) == t;
    assert a.hp == s.hp - {id};
    assert t.log[..|a.log|] == a.log;
    if |AliveIds(a.hp)| <= 1 {
      assert WinnerOf(a) == WinnerOf(r) by {
        assert a.hp == r.hp && a.players == r.players;
      }
    }
  }

  /** The `disconnect` handler: forget `id`, re-broadcast the roster, run
      the win check, and abandon a deserted round. */
  function Disconnect(s: Session, id: Id): (t: Session)
    ensures id !in t.players && id !in t.spectators && id !in t.stickmen && id !in t.inputs && id !in t.hp
    ensures t.hp == s.hp - {id}
    ensures t.state != Waiting ==> |t.players| >= MIN_PLAYERS
  {
    AbandonIfDeserted(Leave(s, id))
  }

  /** Who is left after a disconnect: while a round is still under way the
      roster just loses `id`; a disconnect in the lobby stays in the lobby;
      a forced reset returns to the lobby with every remaining player and
      spectator as a player. */
  lemma DisconnectRoster(s: Session, id: Id)
    ensures var t := Disconnect(s, id);
            && (t.state != Waiting ==> t.players == s.players - {id} && t.spectators == s.spectators - {id})
            && (s.state == Waiting ==> t.state == Waiting && t.players == s.players - {id})
            && (forall o :: o in t.players ==> o != id && (o in s.players || o in s.spectators))
            && (s.state != Waiting && |s.players - {id}| < MIN_PLAYERS ==>
                  && t.state == Waiting && t.spectators == map[]
                  && forall o :: o in t.players <==> o != id && (o in s.players || o in s.spectators))
  {
    var s2 := Leave(s, id);
    LeaveKeepsLobby(s, id);
    if s2.state != Waiting && |s2.players| < MIN_PLAYERS {
      assert Disconnect(s, id) == ResetToLobby(s2);
    } else {
      assert Disconnect(s, id) == s2;
    }
  }

  /** The win check can end a round but never returns to the lobby. */
  lemma LeaveKeepsLobby(s: Session, id: Id)
    ensures Leave(s, id).state == Waiting <==> s.state == Waiting
  {
    var r := AnnounceRoster(Remove(s, id));
    assert r.state == s.state;
  }

  /** Nobody but the leaver loses a place among the players. */
  lemma DisconnectKeepsOthers(s: Session, id: Id)
    ensures forall o :: o in s.players && o != id ==> o in Disconnect(s, id).players
  {
    var s2 := Leave(s, id);
    assert s2.players == s.players - {id};
    assert Disconnect(s, id) == AbandonIfDeserted(s2);
  }

  /** `disconnect` never touches the countdown: not the live intervals, not
      the handle the server remembers, not the count. */
  lemma DisconnectKeepsTimers(s: Session, id: Id)
    ensures Disconnect(s, id).intervals == s.intervals
    ensures Disconnect(s, id).roundInterval == s.roundInterval
    ensures Disconnect(s, id).countdown == s.countdown
  {
    assert Disconnect(s, id) == AbandonIfDeserted(Leave(s, id));
  }
}

=== FILE: round.dfy ===
/** The round state machine of server.js: countdown, round start, the
    round timeout, the win check and the reset to the lobby. Every timer
    callback is an explicit `Fire…` operation on the session. */
module Round {
  import opened Base
  import opened Ragdoll
  import opened Session

  /** Where `startGame` may place a ragdoll: 100 + random*600, 100 + random*400. */
  predicate InSpawnArea(p: Point) {
    100 <= p.x < 700 && 100 <= p.y < 500
  }

  /** The random spawn points drawn for a round: one per player, in range. */
  predicate SpawnsFor(spawns: map<Id, Point>, ids: set<Id>) {
    forall id :: id in ids ==> id in spawns && InSpawnArea(spawns[id])
  }

  /** `startCountdown`: enters `countdown` at 5 and arms a fresh 1-second
      interval. The handle it overwrites is not cleared. */
  function StartCountdown(s: Session): (t: Session)
    ensures t.state == Countdown && t.countdown == COUNTDOWN_START
    ensures t.roundInterval == Some(s.nextHandle)
    ensures s.nextHandle !in s.intervals ==> t.intervals - s.intervals == {s.nextHandle}
    ensures s.intervals <= t.intervals && s.nextHandle in t.intervals && t.nextHandle > s.nextHandle
    ensures t.log == s.log + [Broadcast(CountdownState(COUNTDOWN_START))]
    ensures t.players == s.players && t.spectators == s.spectators && t.hp == s.hp
    ensures t.stickmen == s.stickmen && t.roundTimerArmed == s.roundTimerArmed
  {
    var h := s.nextHandle;
    s.(state := Countdown, countdown := COUNTDOWN_START,
       intervals := s.intervals + {h}, roundInterval := Some(h), nextHandle := h + 1,
       log := s.log + [Broadcast(CountdownState(COUNTDOWN_START))])
  }

  /** The HP table `startGame` builds: MAX_HP for every player. */
  function FullHp(players: map<Id, Player>): (hp: map<Id, int>)
    ensures hp.Keys == players.Keys
    ensures forall id :: id in hp ==> hp[id] == MAX_HP
  {
    map id | id in players :: MAX_HP
  }

  /** Every player un-eliminated and given its spawn point. */
  function Respawned(players: map<Id, Player>, spawns: map<Id, Point>): (r: map<Id, Player>)
    requires SpawnsFor(spawns, players.Keys)
    ensures r.Keys == players.Keys
    ensures forall id :: id in r ==>
              && !r[id].eliminated
              && r[id].id == players[id].id
              && r[id].username == players[id].username
              && r[id].spawn == Some(spawns[id])
  {
    map id | id in players :: players[id].(eliminated := false, spawn := Some(spawns[id]))
  }

  /** The ragdolls map after `startGame` adds one per player. */
  function WithRagdolls(men: map<Id, Stickman>, players: map<Id, Player>, spawns: map<Id, Point>): (r: map<Id, Stickman>)
    requires SpawnsFor(spawns, players.Keys)
    ensures r.Keys == men.Keys + players.Keys
    ensures forall id :: id in players ==> r[id] == MakeStickman(spawns[id], id)
    ensures forall id :: id in r && id !in players ==> r[id] == men[id]
  {
    var built := map id | id in players :: MakeStickman(spawns[id], id);
    var r := men + built;
    assert built.Keys == players.Keys;
    assert forall id :: id in players ==> id in built && r[id] == built[id];
    r
  }

  /** The roster half of `startGame`: every player gets full HP,
      `eliminated = false` and a fresh ragdoll at its spawn point. */
  function Deploy(s: Session, spawns: map<Id, Point>): (t: Session)
    requires SpawnsFor(spawns, s.players.Keys)
    ensures t.state == Running
    ensures forall id :: id in t.hp <==> id in s.players
    ensures forall id :: id in t.hp ==> t.hp[id] == MAX_HP
    ensures forall id :: id in t.players <==> id in s.players
    ensures forall id :: id in t.players ==>
              && !t.players[id].eliminated
              && t.players[id].id == s.players[id].id
              && t.players[id].username == s.players[id].username
              && t.players[id].spawn == Some(spawns[id])
    ensures forall id :: id in t.stickmen <==> id in s.stickmen || id in s.players
    ensures forall id :: id in s.players ==> t.stickmen[id] == MakeStickman(spawns[id], id)
    ensures forall id :: id in t.stickmen && id !in s.players ==> t.stickmen[id] == s.stickmen[id]
    ensures t.spectators == s.spectators && t.inputs == s.inputs && t.log == s.log
    ensures t.intervals == s.intervals && t.roundTimerArmed == s.roundTimerArmed
  {
    s.(state := Running, hp := FullHp(s.players), players := Respawned(s.players, spawns),
       stickmen := WithRagdolls(s.stickmen, s.players, spawns))
  }

  /** `startGame`: the roster is deployed, the round start time recorded,
      the round timer (re)armed, and the round start and the full HP table
      broadcast. */
  function StartGame(s: Session, now: int, spawns: map<Id, Point>): (t: Session)
    requires SpawnsFor(spawns, s.players.Keys)
    ensures CoreUnchanged(Deploy(s, spawns), t)
    ensures t.roundTimerArmed && t.roundStartTime == Some(now)
    ensures t.log == s.log + [Broadcast(RunningState(t.players, now + ROUND_MS)), Broadcast(PlayerHp(t.hp))]
    ensures t.intervals == s.intervals && t.pendingResets == s.pendingResets && t.countdown == s.countdown
  {
    var d := Deploy(s, spawns);
    d.(roundTimerArmed := true, roundStartTime := Some(now),
       log := d.log + [Broadcast(RunningState(d.players, now + ROUND_MS)), Broadcast(PlayerHp(d.hp))])
  }

  /** The first half of an interval tick: `countdown--` and its broadcast. */
  function Tock(s: Session): (t: Session)
    ensures t.countdown == s.countdown - 1
    ensures t.log == s.log + [Broadcast(CountdownState(s.countdown - 1))]
    ensures CoreUnchanged(s, t) && t.intervals == s.intervals && t.roundInterval == s.roundInterval
  {
    s.(countdown := s.countdown - 1, log := s.log + [Broadcast(CountdownState(s.countdown - 1))])
  }

  /** `clearInterval(roundInterval)`: stops the interval the variable names,
      which need not be the one that is firing. */
  function ClearRoundInterval(s: Session): (t: Session)
    ensures s.roundInterval.Some? ==> t.intervals == s.intervals - {s.roundInterval.value}
    ensures s.roundInterval.None? ==> t.intervals == s.intervals
    ensures CoreUnchanged(s, t) && t.log == s.log && t.countdown == s.countdown
  {
    match s.roundInterval
    case Some(r) => s.(intervals := s.intervals - {r})
    case None => s
  }

  /** One tick of the countdown interval with handle `h`: decrement and
      broadcast; at zero or below, clear the interval and call `startGame`.
      It runs whatever the round state is by then. */
  function FireCountdownTick(s: Session, h: nat, now: int, spawns: map<Id, Point>): (t: Session)
    requires SpawnsFor(spawns, s.players.Keys)
    ensures h !in s.intervals ==> t == s
    ensures h in s.intervals && s.countdown > 1 ==> t == Tock(s)
    ensures forall id :: id in t.players <==> id in s.players
    ensures h in s.intervals && s.countdown <= 1 ==>
              && t.state == Running
              && |t.log| > |s.log|
              && t.log[|s.log|] == Broadcast(CountdownState(s.countdown - 1))
              && (s.roundInterval == Some(h) ==> h !in t.intervals)
              && (s.roundInterval != Some(h) ==> h in t.intervals)
  {
    if h !in s.intervals then s
    else
      var s1 := Tock(s);
      if s1.countdown <= 0 then StartGame(ClearRoundInterval(s1), now, spawns)
      else s1
  }

  /** The round timeout: a no-winner `game_over` if still running, even when
      exactly one player is alive. */
  function FireRoundTimeout(s: Session): (t: Session)
    ensures !s.roundTimerArmed ==> t == s
    ensures s.roundTimerArmed && s.state != Running ==> t == s.(roundTimerArmed := false)
    ensures s.roundTimerArmed && s.state == Running ==>
              && t.state == Ended
              && t.log == s.log + [Broadcast(GameOver(None))]
              && t.pendingResets == s.pendingResets + multiset{DRAW_RESET_MS}
              && t.hp == s.hp && t.players == s.players && !t.roundTimerArmed
  {
    if !s.roundTimerArmed then s
    else
      var s1 := s.(roundTimerArmed := false);
      if s1.state == Running then
        s1.(state := Ended, log := s1.log + [Broadcast(GameOver(None))],
            pendingResets := s1.pendingResets + multiset{DRAW_RESET_MS})
      else s1
  }

  /** `resetToLobby`: drops the ragdolls and inputs, the round timer and
      start time, promotes every spectator and returns to `waiting`. HP and
      the countdown interval are left as they are. */
  function ResetToLobby(s: Session): (t: Session)
    ensures t.state == Waiting
    ensures t.stickmen == map[] && t.inputs == map[] && t.spectators == map[]
    ensures !t.roundTimerArmed && t.roundStartTime.None?
    ensures forall id :: id in t.players <==> id in s.players || id in s.spectators
    ensures forall id :: id in s.spectators ==>
              t.players[id] == Player(s.spectators[id].id, s.spectators[id].username, false, None)
    ensures forall id :: id in s.players && id !in s.spectators ==> t.players[id] == s.players[id]
    ensures t.hp == s.hp && t.intervals == s.intervals && t.roundInterval == s.roundInterval
    ensures t.countdown == s.countdown && t.pendingResets == s.pendingResets
    ensures t.log == s.log + [Broadcast(WaitingState), Broadcast(PlayerList(PlayerNames(t.players), map[]))]
  {
    var promoted := map id | id in s.spectators :: Player(s.spectators[id].id, s.spectators[id].username, false, None);
    var t := s.(stickmen := map[], inputs := map[], roundTimerArmed := false, roundStartTime := None,
                players := s.players + promoted, spectators := map[], state := Waiting);
    t.(log := t.log + [Broadcast(WaitingState), Broadcast(PlayerListOf(t))])
  }

  /** One of the scheduled lobby resets fires. */
  function FireReset(s: Session, delay: nat): (t: Session)
    ensures delay !in s.pendingResets ==> t == s
    ensures delay in s.pendingResets ==>
              && t.state == Waiting && t.pendingResets == s.pendingResets - multiset{delay}
              && t.stickmen == map[] && t.inputs == map[] && t.spectators == map[]
              && !t.roundTimerArmed && t.roundStartTime.None?
              && (forall id :: id in t.players <==> id in s.players || id in s.spectators)
              && (forall id :: id in s.spectators ==>
                    t.players[id] == Player(s.spectators[id].id, s.spectators[id].username, false, None))
              && (forall id :: id in s.players && id !in s.spectators ==> t.players[id] == s.players[id])
              && t.hp == s.hp && t.intervals == s.intervals && t.roundInterval == s.roundInterval
              && t.log == s.log + [Broadcast(WaitingState), Broadcast(PlayerList(PlayerNames(t.players), map[]))]
  {
    if delay !in s.pendingResets then s
    else ResetToLobby(s.(pendingResets := s.pendingResets - multiset{delay}))
  }

  /** The only element of a one-element set. */
  function SoleMember(xs: set<Id>): (x: Id)
    requires |xs| == 1
    ensures xs == {x}
  {
    SingletonHasMember(xs);
    var x :| x in xs;
    x
  }

  lemma SingletonHasMember(xs: set<Id>)
    requires |xs| == 1
    ensures exists x :: xs == {x}
    ensures forall a, b :: a in xs && b in xs ==> a == b
  {
    var x :| x in xs;
    assert |xs - {x}| == 0;
    assert xs == {x};
  }

  /** `players[winnerId]?.username || '???'`. */
  function WinnerName(s: Session, id: Id): (name: string)
    ensures name != ""
    ensures id in s.players && s.players[id].username != "" ==> name == s.players[id].username
  {
    if id in s.players && s.players[id].username != "" then s.players[id].username else "???"
  }

  /** The `game_over` winner the check reports: the sole survivor's name
      (or '???'), or none when nobody is alive. */
  function WinnerOf(s: Session): (w: Option<string>)
    requires |AliveIds(s.hp)| <= 1
    ensures w.None? <==> |AliveIds(s.hp)| == 0
    ensures w.Some? ==> exists id :: AliveIds(s.hp) == {id} && w.value == WinnerName(s, id)
  {
    var alive := AliveIds(s.hp);
    if |alive| == 1 then Some(WinnerName(s, SoleMember(alive))) else None
  }

  /** `checkForWinner`: acts only while `running` or `ended`, and then on
      every call (there is no guard against repeats while `ended`). One
      survivor is a win (reset after 5 s), none a draw (reset after 4 s). */
  function CheckForWinner(s: Session): (t: Session)
    ensures s.state != Running && s.state != Ended ==> t == s
    ensures |AliveIds(s.hp)| >= 2 ==> t == s
    ensures (s.state == Running || s.state == Ended) && |AliveIds(s.hp)| <= 1 ==>
              && t.state == Ended && !t.roundTimerArmed && t.roundStartTime.None?
              && t.log == s.log + [Broadcast(GameOver(WinnerOf(s)))]
              && t.pendingResets == s.pendingResets
                   + multiset{if |AliveIds(s.hp)| == 1 then WIN_RESET_MS else DRAW_RESET_MS}
    ensures t.hp == s.hp && t.players == s.players && t.spectators == s.spectators
    ensures t.stickmen == s.stickmen && t.inputs == s.inputs && t.intervals == s.intervals
    ensures t.roundInterval == s.roundInterval && t.countdown == s.countdown
    ensures t.state == s.state || t.state == Ended
  {
    var alive := AliveIds(s.hp);
    if (s.state != Running && s.state != Ended) || |alive| >= 2 then s
    else
      var delay := if |alive| == 1 then WIN_RESET_MS else DRAW_RESET_MS;
      s.(log := s.log + [Broadcast(GameOver(WinnerOf(s)))], state := Ended,
         roundTimerArmed := false, roundStartTime := None,
         pendingResets := s.pendingResets + multiset{delay})
  }

  /** From `running`, the win check ends the round exactly when at most one
      player still has HP above zero. */
  lemma EndsIffAtMostOneAlive(s: Session)
    requires s.state == Running
    ensures CheckForWinner(s).state == Ended <==> |AliveIds(s.hp)| <= 1
    ensures |AliveIds(s.hp)| <= 1 ==> |CheckForWinner(s).log| == |s.log| + 1
  {
  }
}

=== FILE: scenarios.dfy ===
/** Whole runs of the server: the countdown from `start_game` to a running
    round, the countdown that outlives a forced return to the lobby, a
    walkover win by disconnect, and a killing blow that ends the round
    before the victim can hit back. */
module Scenarios {
  import opened Base
  import opened Session
  import opened Round
  import opened Combat
  import opened Roster

  /** `n` firings in a row of the countdown interval with handle `h`. */
  function FireTimes(s: Session, h: nat, n: nat, now: int, spawns: map<Id, Point>): (t: Session)
    requires SpawnsFor(spawns, s.players.Keys)
    ensures forall id :: id in t.players <==> id in s.players
    decreases n
  {
    if n == 0 then s
    else FireCountdownTick(FireTimes(s, h, n - 1, now, spawns), h, now, spawns)
  }

  /** While the count stays positive, each firing of the live interval only
      counts down: `k` firings leave the count `k` lower and the state, the
      timers and the roster as they were. */
  lemma {:induction false} CountsDown(s: Session, h: nat, k: nat, now: int, spawns: map<Id, Point>)
    requires SpawnsFor(spawns, s.players.Keys)
    requires h in s.intervals && k < s.countdown
    ensures var t := FireTimes(s, h, k, now, spawns);
            && t.countdown == s.countdown - k && t.state == s.state && t.players == s.players
            && t.intervals == s.intervals && t.roundInterval == s.roundInterval
    decreases k
  {
    if k > 0 {
      CountsDown(s, h, k - 1, now, spawns);
    }
  }

  /** Once the count is down to one, the next firing of the interval the
      server remembers starts the round: state `running`, the interval
      cleared, and every player at full HP. */
  lemma LastFiringStarts(s: Session, h: nat, now: int, spawns: map<Id, Point>)
    requires SpawnsFor(spawns, s.players.Keys)
    requires h in s.intervals && s.roundInterval == Some(h) && s.countdown == 1
    ensures var t := FireCountdownTick(s, h, now, spawns);
            && t.state == Running && h !in t.intervals
            && (forall id :: id in t.hp <==> id in s.players)
            && (forall id :: id in t.hp ==> t.hp[id] == MAX_HP)
  {
    var t1 := ClearRoundInterval(Tock(s));
    assert FireCountdownTick(s, h, now, spawns) == StartGame(t1, now, spawns);
  }

  /** `n` firings of a live interval whose count is `n` start a round,
      whatever the round state was before. */
  lemma FiringsStartRound(s: Session, h: nat, n: nat, now: int, spawns: map<Id, Point>)
    requires SpawnsFor(spawns, s.players.Keys)
    requires h in s.intervals && s.roundInterval == Some(h) && s.countdown == n && n >= 1
    ensures var t := FireTimes(s, h, n, now, spawns);
            && t.state == Running && h !in t.intervals
            && (forall id :: id in t.hp <==> id in s.players)
            && (forall id :: id in t.hp ==> t.hp[id] == MAX_HP)
  {
    CountsDown(s, h, n - 1, now, spawns);
    var p := FireTimes(s, h, n - 1, now, spawns);
    LastFiringStarts(p, h, now, spawns);
    assert FireTimes(s, h, n, now, spawns) == FireCountdownTick(p, h, now, spawns);
  }

  /** `start_game` in a lobby of two or more: four firings count down from
      five, the fifth starts the round with every player at full HP. */
  lemma CountdownReachesRound(s: Session, now: int, spawns: map<Id, Point>)
    requires CanStartNow(s) && s.nextHandle !in s.intervals && SpawnsFor(spawns, s.players.Keys)
    ensures StartRequest(s).players == s.players
    ensures var c := StartRequest(s);
            var t4 := FireTimes(c, s.nextHandle, 4, now, spawns);
            t4.state == Countdown && t4.countdown == 1
    ensures var t := FireTimes(StartRequest(s), s.nextHandle, 5, now, spawns);
            && t.state == Running && s.nextHandle !in t.intervals
            && (forall id :: id in t.hp <==> id in s.players)
            && (forall id :: id in t.hp ==> t.hp[id] == MAX_HP)
  {
    var c := StartCountdown(s);
    assert StartRequest(s) == c;
    assert c.countdown == 5 && c.roundInterval == Some(s.nextHandle) && s.nextHandle in c.intervals;
    CountsDown(c, s.nextHandle, 4, now, spawns);
    FiringsStartRound(c, s.nextHandle, 5, now, spawns);
  }

  /** A round called off during its countdown: when one of the only two
      players leaves, the server returns to the lobby but the countdown
      interval keeps running, and its remaining firings start a round for
      the single player left, without any `start_game`. */
  lemma DesertedCountdownStillStarts(s: Session, a: Id, b: Id, h: nat, now: int, spawns: map<Id, Point>)
    requires s.state == Countdown && s.countdown >= 1
    requires h in s.intervals && s.roundInterval == Some(h)
    requires a != b && forall o :: o in s.players <==> o == a || o == b
    requires s.spectators == map[] && SpawnsFor(spawns, {b})
    ensures Disconnect(s, a).state == Waiting
    ensures forall o :: o in Disconnect(s, a).players <==> o == b
    ensures h in Disconnect(s, a).intervals && Disconnect(s, a).countdown == s.countdown
    ensures var t := FireTimes(Disconnect(s, a), h, s.countdown as nat, now, spawns);
            && t.state == Running
            && (forall id :: id in t.players <==> id == b)
            && (forall id :: id in t.hp <==> id == b)
  {
    DisconnectKeepsCountdown(s, a, b);
    var r := Disconnect(s, a);
    FiringsStartRound(r, h, s.countdown as nat, now, spawns);
  }

  /** The steps of `disconnect` in the countdown when too few players stay:
      the roster loses the leaver, the lobby reset keeps the interval. */
  lemma DisconnectKeepsCountdown(s: Session, a: Id, b: Id)
    requires s.state == Countdown && s.spectators == map[]
    requires a != b && forall o :: o in s.players <==> o == a || o == b
    ensures var r := Disconnect(s, a);
            && r.state == Waiting && (forall o :: o in r.players <==> o in s.players && o != a)
            && r.intervals == s.intervals && r.roundInterval == s.roundInterval
            && r.countdown == s.countdown
  {
    DisconnectRoster(s, a);
    DisconnectKeepsOthers(s, a);
    DisconnectKeepsTimers(s, a);
    assert (s.players - {a}).Keys == {b};
  }

  /** A player leaving a round in which one other player is still alive
      hands that player the win: after the roster broadcasts comes a
      `game_over` naming the survivor and a reset is scheduled in 5 s. When
      the survivor was the only other player the lobby is restored at once
      as well, and the scheduled reset still fires later. */
  lemma WalkoverWins(s: Session, a: Id, b: Id)
    requires s.state == Running && a != b
    requires AliveIds(s.hp - {a}) == {b}
    requires b in s.players && s.players[b].username != ""
    ensures var t := Disconnect(s, a);
            && |t.log| > |s.log| + 2
            && t.log[|s.log| + 2] == Broadcast(GameOver(Some(s.players[b].username)))
            && WIN_RESET_MS in t.pendingResets
    ensures (forall o :: o in s.players <==> o == a || o == b) ==> Disconnect(s, a).state == Waiting
  {
    var r := Remove(s, a);
    var l := Leave(s, a);
    LeaveChecksWinner(s, a);
    assert Disconnect(s, a) == AbandonIfDeserted(l);
    assert |AliveIds(s.hp - {a})| == 1;
    assert WinnerOf(r) == Some(s.players[b].username) by {
      assert AliveIds(r.hp) == {b};
      assert b in r.players && r.players[b] == s.players[b];
    }
    if (forall o :: o in s.players <==> o == a || o == b) {
      OneLeft(s.players, a, b);
    }
  }

  /** A roster of exactly `a` and `b` without `a` holds one entry. */
  lemma OneLeft(m: map<Id, Player>, a: Id, b: Id)
    requires a != b && forall o :: o in m <==> o == a || o == b
    ensures |m - {a}| == 1
  {
    assert (m - {a}).Keys == {b};
  }

  /** The collision pair in which A deals B a killing blow while B is A's
      last opponent: the round ends inside the first damage direction, with
      a `game_over` naming A and a win reset, so B's strike back does nothing
      and A keeps its HP. */
  lemma FirstKillShieldsAttacker(s: Session, a: CollisionBody, b: CollisionBody)
    requires s.state == Running && !Skipped(s, a, b)
    requires AliveIds(s.hp) == {a.playerId.value, b.playerId.value}
    requires PairDamage(a, b) >= s.hp[b.playerId.value]
    ensures ResolvePair(s, a, b).state == Ended
    ensures ResolvePair(s, a, b).hp[a.playerId.value] == s.hp[a.playerId.value]
    ensures ResolvePair(s, a, b).hp[b.playerId.value] == 0
    ensures |ResolvePair(s, a, b).log| > |s.log| + 2
    ensures ResolvePair(s, a, b).log[|s.log| + 2] == Broadcast(GameOver(Some(WinnerName(s, a.playerId.value))))
    ensures ResolvePair(s, a, b).pendingResets == s.pendingResets + multiset{WIN_RESET_MS}
    ensures !ResolvePair(s, a, b).roundTimerArmed
  {
    var s1 := Announce(s, BloodParticle(a, b));
    LethalStrike(s1, a, b);
    var s2 := Strike(s1, a, b);
    HarmlessStrikeBack(s2, b, a);
  }

  /** A's killing blow on its last opponent B: B's HP drops to zero, the
      round ends with A named the winner, and the win reset is scheduled. */
  lemma LethalStrike(s: Session, a: CollisionBody, b: CollisionBody)
    requires s.state == Running && !Skipped(s, a, b)
    requires AliveIds(s.hp) == {a.playerId.value, b.playerId.value}
    requires PairDamage(a, b) >= s.hp[b.playerId.value]
    ensures var t := Strike(s, a, b);
            && t.state == Ended && t.hp[b.playerId.value] == 0 && t.hp[a.playerId.value] == s.hp[a.playerId.value]
            && |t.log| > |s.log| + 1
            && t.log[|s.log| + 1] == Broadcast(GameOver(Some(WinnerName(s, a.playerId.value))))
            && t.pendingResets == s.pendingResets + multiset{WIN_RESET_MS}
            && !t.roundTimerArmed
  {
    var ia, ib := a.playerId.value, b.playerId.value;
    var d := PairDamage(a, b);
    var w := ApplyDamage(s, ib, d);
    assert CanBeDamaged(s, ib);
    assert AliveIds(w.hp) == {ia};
    assert EndsRound(s, ib, d);
    assert WinnerOf(w) == Some(WinnerName(w, ia));
    ApplyDamageKeepsNames(s, ib, d, ia);
    var t := Strike(s, a, b);
    assert t == w.(log := t.log) && t.log[..|w.log|] == w.log;
  }

  /** A strike after the round has ended only bounces: HP, state and timers
      stay, and the log only grows. */
  lemma HarmlessStrikeBack(s: Session, attacker: CollisionBody, defender: CollisionBody)
    requires s.state == Ended && attacker.playerId.Some? && defender.playerId.Some?
    ensures var t := Strike(s, attacker, defender);
            && t.hp == s.hp && t.state == Ended && t.pendingResets == s.pendingResets
            && t.roundTimerArmed == s.roundTimerArmed
            && |t.log| >= |s.log| && t.log[..|s.log|] == s.log
  {
    StrikeExtendsLog(s, attacker, defender);
  }
}

=== FILE: server.dfy ===
/** Everything that can happen to the server session, one event at a time:
    a socket message, a timer callback, a physics collision event or a tick
    of the synchronisation loop. Handlers run to completion one after
    another, so a run of the server is a sequence of these. */
module Server {
  import opened Base
  import opened Session
  import opened Round
  import opened Combat
  import opened Roster
  import opened Tick

  datatype Action =
    | JoinMsg(id: Id, payload: JoinPayload)
    | InputMsg(id: Id, controls: Controls)
    | StartMsg
    | DisconnectMsg(id: Id)
    | CountdownFires(handle: nat, now: int, spawns: map<Id, Point>)
    | RoundTimeoutFires
    | ResetFires(delay: nat)
    | Collisions(pairs: seq<(CollisionBody, CollisionBody)>)
    | TickFires

  /** The random draws behind a countdown tick are spawn points in range. */
  predicate Admissible(s: Session, a: Action) {
    a.CountdownFires? ==> SpawnsFor(a.spawns, s.players.Keys)
  }

  /** The session after handling `a`. */
  function Step(s: Session, a: Action): (t: Session)
    requires Admissible(s, a)
    ensures a.InputMsg? || a.TickFires? || a.Collisions? ==> t.players.Keys == s.players.Keys
    ensures a.DisconnectMsg? ==> a.id !in t.players && a.id !in t.hp
  {
    match a
    case JoinMsg(id, payload) => Join(s, id, payload)
    case InputMsg(id, c) => SetInput(s, id, c)
    case StartMsg => StartRequest(s)
    case DisconnectMsg(id) => Disconnect(s, id)
    case CountdownFires(h, now, spawns) => FireCountdownTick(s, h, now, spawns)
    case RoundTimeoutFires => FireRoundTimeout(s)
    case ResetFires(delay) => FireReset(s, delay)
    case Collisions(pairs) => OnCollision(s, pairs)
    case TickFires => RunTick(s).0
  }

  /** Every action of the run is admissible where it happens. */
  ghost predicate AdmissibleRun(s: Session, acts: seq<Action>)
    decreases |acts|
  {
    acts == [] || (Admissible(s, acts[0]) && AdmissibleRun(Step(s, acts[0]), acts[1..]))
  }

  /** The session after a whole run. */
  function Run(s: Session, acts: seq<Action>): (t: Session)
    requires AdmissibleRun(s, acts)
    decreases |acts|
    ensures acts == [] ==> t == s
  {
    if acts == [] then s else Run(Step(s, acts[0]), acts[1..])
  }
}

=== FILE: session.dfy ===
/** The server's process-wide state (the module-level variables of
    server.js) as one immutable record, plus the events it emits. */
module Session {
  import opened Base
  import opened Ragdoll

  const MAX_HP: int := 1000
  const MIN_PLAYERS: nat := 2
  const COUNTDOWN_START: int := 5
  /** Round length: 5 * 60 * 1000 milliseconds. */
  const ROUND_MS: int := 300000
  /** Delay before the lobby reset after a win. */
  const WIN_RESET_MS: nat := 5000
  /** Delay before the lobby reset after a draw or a timeout. */
  const DRAW_RESET_MS: nat := 4000
  /** Usernames are cut to this many characters. */
  const NAME_LIMIT: nat := 16

  /** A participant. `eliminated` is false until the owner's HP reaches 0. */
  datatype Player = Player(id: Id, username: string, eliminated: bool, spawn: Option<Point>)

  /** A connection watching the round. */
  datatype Spectator = Spectator(id: Id, username: string)

  /** One body of a collision pair: its owner tag (absent on the arena
      walls) and its part label. */
  datatype CollisionBody = CollisionBody(playerId: Option<Id>, partName: string)

  /** The messages the server emits. */
  datatype Event =
    | CountdownState(count: int)
    | RunningState(players: map<Id, Player>, roundEndsAt: int)
    | WaitingState
    | JoinSnapshot(state: GameState, snapshotPlayers: map<Id, Player>, snapshotCountdown: int, endsAt: Option<int>)
    | PlayerHp(hp: map<Id, int>)
    | GameOver(winner: Option<string>)
    | BloodParticle(hitA: CollisionBody, hitB: CollisionBody)
    | Bounce(pusher: BodyTag, pushed: BodyTag)
    | PlayerList(playerNames: map<Id, string>, spectatorNames: map<Id, string>)
    | CanStart(ok: bool)
    | SimState(ragdolls: set<Id>)

  /** An entry of the session's log: an event emitted to every connection,
      or to one socket only, or a physics effect the server applies to the
      world without telling any socket (`doBounce`). */
  datatype Emit = Broadcast(event: Event) | Direct(to: Id, event: Event) | Physics(event: Event)

  /** The whole session. Timers are explicit: `intervals` holds the live
      countdown intervals by handle and `roundInterval` the handle the
      server's variable remembers; `roundTimerArmed` is the one-shot round
      timeout; `pendingResets` are the lobby resets scheduled (by delay),
      which nothing ever cancels. */
  datatype Session = Session(
    state: GameState,
    players: map<Id, Player>,
    spectators: map<Id, Spectator>,
    countdown: int,
    intervals: set<nat>,
    roundInterval: Option<nat>,
    nextHandle: nat,
    roundTimerArmed: bool,
    roundStartTime: Option<int>,
    pendingResets: multiset<nat>,
    stickmen: map<Id, Stickman>,
    inputs: map<Id, Controls>,
    hp: map<Id, int>,
    log: seq<Emit>)

  /** The state when the process starts. */
  const Initial: Session :=
    Session(Waiting, map[], map[], 0, {}, None, 0, false, None, multiset{}, map[], map[], map[], [])

  /** `t` differs from `s` at most in its timers and its log. */
  ghost predicate CoreUnchanged(s: Session, t: Session) {
    && t.state == s.state && t.players == s.players && t.spectators == s.spectators
    && t.stickmen == s.stickmen && t.hp == s.hp && t.inputs == s.inputs
  }

  /** Appends one broadcast to the log. */
  function Announce(s: Session, e: Event): (t: Session)
    ensures t.log == s.log + [Broadcast(e)]
    ensures CoreUnchanged(s, t)
  {
    s.(log := s.log + [Broadcast(e)])
  }

  /** Records a physics effect in the log; no socket receives it. */
  function Apply(s: Session, e: Event): (t: Session)
    ensures t.log == s.log + [Physics(e)]
    ensures CoreUnchanged(s, t)
  {
    s.(log := s.log + [Physics(e)])
  }

  /** Whether `id` is a player already marked eliminated. */
  predicate IsEliminated(s: Session, id: Id) {
    id in s.players && s.players[id].eliminated
  }

  /** The ids whose HP is above zero. */
  function AliveIds(hp: map<Id, int>): (r: set<Id>)
    ensures forall id :: id in r <==> id in hp && hp[id] > 0
  {
    set id | id in hp && hp[id] > 0
  }

  /** The `{id, username}` list of `broadcastPlayerList`, keyed by id. */
  function PlayerNames(players: map<Id, Player>): map<Id, string> {
    map id | id in players :: players[id].username
  }

  function SpectatorNames(spectators: map<Id, Spectator>): map<Id, string> {
    map id | id in spectators :: spectators[id].username
  }

  /** The `player_list` event for the current roster. */
  function PlayerListOf(s: Session): Event {
    PlayerList(PlayerNames(s.players), SpectatorNames(s.spectators))
  }

  /** The round end timestamp sent to a joiner: none unless a round start
      time is recorded, and none for a start time of 0 either, since the
      server tests the start time for truthiness. */
  function RoundEndsAt(s: Session): (r: Option<int>)
    ensures r.Some? <==> s.roundStartTime.Some? && s.roundStartTime.value != 0
    ensures r.Some? ==> r.value - ROUND_MS == s.roundStartTime.value
  {
    match s.roundStartTime
    case Some(t) => if t == 0 then None else Some(t + ROUND_MS)
    case None => None
  }
}

=== FILE: tick.dfy ===
/** The input-to-force mapping of the 30 Hz tick loop in server.js. Forces
    are sign vectors: each held key contributes one unit of the fixed force
    amount, so opposite keys cancel exactly. */
module Tick {
  import opened Base
  import opened Session

  /** What one tick does to one head: a force (fx, fy) and an angular
      nudge, each in {-1, 0, 1} units. */
  datatype Push = Push(fx: int, fy: int, spin: int)

  /** +1 for `plus` alone, -1 for `minus` alone, 0 for both or neither. */
  function Axis(minus: bool, plus: bool): (v: int)
    ensures -1 <= v <= 1
    ensures v == 1 <==> plus && !minus
    ensures v == -1 <==> minus && !plus
  {
    (if plus then 1 else 0) - (if minus then 1 else 0)
  }

  /** The push for one player's controls, or `None` when the net force is
      zero (then no force and no nudge are applied). */
  function PushOf(c: Controls): (p: Option<Push>)
    ensures p.None? <==> Axis(c.left, c.right) == 0 && Axis(c.up, c.down) == 0
    ensures p.Some? ==> p.value.fx == Axis(c.left, c.right) && p.value.fy == Axis(c.up, c.down)
    ensures p.Some? ==> (p.value.spin == -1 <==> c.left && !c.right)
    ensures p.Some? ==> (p.value.spin == 1 <==> c.right && !c.left)
    ensures p.Some? ==> (p.value.spin == 0 <==> c.left == c.right)
  {
    var fx := Axis(c.left, c.right);
    var fy := Axis(c.up, c.down);
    if fx == 0 && fy == 0 then None
    else
      var spin := if c.left && !c.right then -1 else if c.right && !c.left then 1 else 0;
      Some(Push(fx, fy, spin))
  }

  /** The nudge always turns the way the horizontal force points. */
  lemma SpinFollowsHorizontalForce(c: Controls)
    ensures PushOf(c).Some? ==> PushOf(c).value.spin == PushOf(c).value.fx
  {
  }

  /** The controls the tick reads for `id` (`playerInputs[id] || {}`). */
  function InputOf(s: Session, id: Id): Controls {
    if id in s.inputs then s.inputs[id] else NoControls
  }

  /** Whether the tick drives the ragdoll of `id`: it has one with a head,
      is not an eliminated player, and its net force is non-zero. */
  predicate Driven(s: Session, id: Id) {
    && id in s.stickmen
    && "head" in s.stickmen[id].parts
    && !IsEliminated(s, id)
    && PushOf(InputOf(s, id)).Some?
  }

  /** The pushes one tick applies, by ragdoll owner. Nothing moves outside
      `running` and `ended`. */
  function TickForces(s: Session): (f: map<Id, Push>)
    ensures s.state != Running && s.state != Ended ==> f == map[]
    ensures s.state == Running || s.state == Ended ==>
              forall id :: id in f <==> Driven(s, id)
    ensures forall id :: id in f ==> Some(f[id]) == PushOf(InputOf(s, id))
  {
    if s.state != Running && s.state != Ended then map[]
    else map id | id in s.stickmen && Driven(s, id) :: PushOf(InputOf(s, id)).value
  }

  /** One tick: the pushes, and the `sim_state` broadcast naming every
      ragdoll (positions are not modelled). */
  function RunTick(s: Session): (r: (Session, map<Id, Push>))
    ensures r.1 == TickForces(s)
    ensures s.state != Running && s.state != Ended ==> r.0 == s
    ensures CoreUnchanged(s, r.0)
    ensures s.state == Running || s.state == Ended ==>
              r.0.log == s.log + [Broadcast(SimState(s.stickmen.Keys))]
  {
    if s.state != Running && s.state != Ended then (s, map[])
    else (Announce(s, SimState(s.stickmen.Keys)), TickForces(s))
  }
}

=== FILE: timer.dfy ===
/** The round clock of public/game.js: the milliseconds left until the
    round ends, clamped at zero, shown as `min:ss`. */
module Timer {
  import opened Base

  /** The character of a decimal digit. */
  function DigitChar(d: nat): (c: char)
    requires d < 10
    ensures '0' <= c <= '9'
  {
    ('0' as int + d) as char
  }

  /** The value of a decimal digit character. */
  function DigitValue(c: char): (d: nat)
    requires '0' <= c <= '9'
    ensures d < 10
  {
    c as int - '0' as int
  }

  predicate AllDigits(s: string) {
    forall i :: 0 <= i < |s| ==> '0' <= s[i] <= '9'
  }

  /** `n.toString()` for a non-negative integer. */
  function NatText(n: nat): (s: string)
    ensures |s| >= 1 && AllDigits(s)
    ensures n < 10 <==> |s| == 1
    ensures n >= 10 ==> s[0] != '0'
    decreases n
  {
    if n < 10 then [DigitChar(n)] else NatText(n / 10) + [DigitChar(n % 10)]
  }

  /** Reading a string of decimal digits, most significant first. */
  function ParseDigits(s: string): nat
    requires AllDigits(s)
    decreases |s|
  {
    if s == [] then 0 else ParseDigits(s[..|s| - 1]) * 10 + DigitValue(s[|s| - 1])
  }

  /** Printing and reading back a number gives the number. */
  lemma {:induction false} ParseNatText(n: nat)
    ensures ParseDigits(NatText(n)) == n
    decreases n
  {
    var s := NatText(n);
    assert DigitValue(DigitChar(n % 10)) == n % 10;
    if n >= 10 {
      assert s[..|s| - 1] == NatText(n / 10);
      ParseNatText(n / 10);
    } else {
      assert s[..0] == [];
    }
  }

  /** `padStart(2, '0')`. */
  function Pad2(s: string): (r: string)
    ensures |s| >= 2 ==> r == s
    ensures |s| < 2 ==> |r| == 2 && r[2 - |s|..] == s && forall i :: 0 <= i < 2 - |s| ==> r[i] == '0'
  {
    if |s| >= 2 then s else seq(2 - |s|, _ => '0') + s
  }

  /** The clamped remainder `max(roundEndsAt - now, 0)`. */
  function Remaining(endsAt: int, now: int): (ms: nat)
    ensures ms == 0 <==> endsAt <= now
    ensures ms > 0 ==> ms == endsAt - now
  {
    if endsAt - now < 0 then 0 else endsAt - now
  }

  /** The text drawn at the top of the canvas: digits, a colon, and exactly
      two digits; what they read back as is `ClockReadsBack`. */
  function TimerText(endsAt: int, now: int): (t: string)
    ensures |t| >= 4 && t[|t| - 3] == ':'
    ensures AllDigits(t[..|t| - 3]) && AllDigits(t[|t| - 2..])
  {
    var ms := Remaining(endsAt, now);
    var m := NatText(ms / 60000);
    var sec := Pad2(NatText((ms / 1000) % 60));
    PaddedSeconds((ms / 1000) % 60);
    assert (m + ":" + sec)[..|m|] == m && (m + ":" + sec)[|m| + 1..] == sec;
    m + ":" + sec
  }

  /** Reading a clock text back: minutes before the colon, two-digit seconds
      after it. */
  function ParseClock(t: string): (r: Option<(nat, nat)>)
  {
    if |t| >= 4 && t[|t| - 3] == ':' && AllDigits(t[..|t| - 3]) && AllDigits(t[|t| - 2..])
    then Some((ParseDigits(t[..|t| - 3]), ParseDigits(t[|t| - 2..])))
    else None
  }

  /** Two-digit padding of a number below 60 reads back as that number. */
  lemma PaddedSeconds(sec: nat)
    requires sec < 60
    ensures |Pad2(NatText(sec))| == 2 && AllDigits(Pad2(NatText(sec)))
    ensures ParseDigits(Pad2(NatText(sec))) == sec
  {
    ParseNatText(sec);
    var s := NatText(sec);
    if sec < 10 {
      var r := Pad2(s);
      assert r == ['0', DigitChar(sec)];
      assert r[..1] == ['0'] && r[..1][..0] == [];
    }
  }

  /** The clock shows whole minutes and the seconds within the minute: read
      back, `min * 60 + sec` is the number of whole seconds left, and
      `sec < 60`. */
  lemma ClockReadsBack(endsAt: int, now: int)
    ensures var ms := Remaining(endsAt, now);
            ParseClock(TimerText(endsAt, now)) == Some((ms / 60000, (ms / 1000) % 60))
    ensures var ms := Remaining(endsAt, now);
            (ms / 60000) * 60 + (ms / 1000) % 60 == ms / 1000
  {
    var ms := Remaining(endsAt, now);
    var m := NatText(ms / 60000);
    var sec := Pad2(NatText((ms / 1000) % 60));
    var t := TimerText(endsAt, now);
    PaddedSeconds((ms / 1000) % 60);
    ParseNatText(ms / 60000);
    assert t == m + ":" + sec;
    assert t[..|t| - 3] == m;
    assert t[|t| - 2..] == sec;
    assert t[|t| - 3] == ':';
    assert ms / 1000 == (ms / 60000) * 60 + (ms / 1000) % 60 by {
      assert ms / 60000 == (ms / 1000) / 60;
    }
  }
}

=== FILE: wire.dfy ===
/** What the browser makes of the server's round messages: the `game_state`
    payloads of server.js as public/game.js receives them, and what a client
    shows after each. */
module Wire {
  import opened Base
  import opened Session
  import opened Roster
  import opened Client

  /** A player record as serialised for the client: only `id` and
      `username` are read on the other side. */
  function Entries(ps: map<Id, Player>): (m: map<Id, PlayerEntry>)
    ensures forall id :: id in m <==> id in ps
    ensures forall id :: id in m ==> m[id] == PlayerEntry(ps[id].id, ps[id].username)
  {
    map id | id in ps :: PlayerEntry(ps[id].id, ps[id].username)
  }

  /** The `game_state` payload a server event carries, if it is one. The
      countdown and lobby messages carry no roster. */
  function MessageOf(e: Event): (m: Option<GameStateMsg>)
    ensures m.Some? <==> e.CountdownState? || e.RunningState? || e.WaitingState? || e.JoinSnapshot?
    ensures e.CountdownState? || e.WaitingState? ==> m.value.players == None && m.value.roundEndsAt == None
    ensures e.RunningState? ==> m.value == GameStateMsg(Running, Some(Entries(e.players)), None, Some(e.roundEndsAt))
  {
    match e
    case CountdownState(c) => Some(GameStateMsg(Countdown, None, Some(c), None))
    case RunningState(ps, endsAt) => Some(GameStateMsg(Running, Some(Entries(ps)), None, Some(endsAt)))
    case WaitingState => Some(GameStateMsg(Waiting, None, None, None))
    case JoinSnapshot(state, ps, c, endsAt) => Some(GameStateMsg(state, Some(Entries(ps)), Some(c), endsAt))
    case _ => None
  }

  /** The countdown messages carry no roster, so every connected client,
      player or not, counts itself a spectator during the countdown and is
      shown the in-progress text. */
  lemma CountdownShowsInProgress(cs: ClientState, c: int)
    requires Ready(cs)
    ensures var r := OnGameState(cs, MessageOf(CountdownState(c)).value);
            && r.gameState == Countdown && r.allPlayers == map[]
            && r.spectator && r.overlay == InProgressText
  {
  }

  /** The start-of-round message names the players: a client in it watches
      its own ragdoll with no overlay and the round clock set, one not in it
      is a spectator. */
  lemma RunningShowsArena(cs: ClientState, ps: map<Id, Player>, endsAt: int)
    requires Ready(cs)
    ensures var r := OnGameState(cs, MessageOf(RunningState(ps, endsAt)).value);
            && r.gameState == Running
            && (r.spectator <==> cs.socketId.value !in ps)
            && (cs.socketId.value in ps ==> r.overlay == "")
            && (cs.socketId.value !in ps ==> r.overlay == InProgressText)
            && r.roundEndsAt == ClockOf(Some(endsAt))
  {
  }

  /** The lobby message carries no roster either: until the player list
      that follows it arrives, the client knows no players and asks for
      two; the list then decides between the two lobby texts. */
  lemma LobbyAfterReset(cs: ClientState, list: PlayerListMsg)
    requires Ready(cs)
    ensures var w := OnGameState(cs, MessageOf(WaitingState).value);
            && w.gameState == Waiting && !w.spectator && w.overlay == NeedTwoText
            && var r := OnPlayerList(w, list);
               r.overlay == PressFText <==> |KeyById(Listed(list))| >= 2
  {
  }

  /** A connection that joins during a round lands among the spectators, and
      the snapshot the server sends it makes the client a spectator too. */
  lemma LateJoinerSpectates(s: Session, id: Id, name: string, cs: ClientState)
    requires name != "" && s.state == Running && id !in s.players
    requires Ready(cs) && cs.socketId == Some(id)
    ensures var t := Join(s, id, Text(name));
            && |t.log| == |s.log| + 4 && t.log[|s.log| + 2].Direct? && t.log[|s.log| + 2].to == id
            && MessageOf(t.log[|s.log| + 2].event).Some?
            && var r := OnGameState(cs, MessageOf(t.log[|s.log| + 2].event).value);
               r.spectator && r.overlay == InProgressText && r.gameState == Running
  {
    JoinAnnounces(s, id, name);
  }

  /** A connection that joins in the lobby is listed in the snapshot it is
      sent, so its client is no spectator and shows a lobby text. */
  lemma LobbyJoinerPlays(s: Session, id: Id, name: string, cs: ClientState)
    requires name != "" && s.state == Waiting
    requires Ready(cs) && cs.socketId == Some(id)
    ensures var t := Join(s, id, Text(name));
            && |t.log| == |s.log| + 4 && t.log[|s.log| + 2].Direct? && t.log[|s.log| + 2].to == id
            && MessageOf(t.log[|s.log| + 2].event).Some?
            && var r := OnGameState(cs, MessageOf(t.log[|s.log| + 2].event).value);
               && !r.spectator && id in r.allPlayers && r.gameState == Waiting
               && (r.overlay == PressFText || r.overlay == NeedTwoText)
  {
    JoinAnnounces(s, id, name);
  }

  /** A `game_state` that arrives before the socket has its id is handled on
      `connect` exactly as it would have been handled at once, except that
      its round deadline is never recorded. */
  lemma ReplayKeepsOldClock(cs: ClientState, m: GameStateMsg, id: Id)
    requires !cs.gotSocketId && cs.pending == None && id != ""
    ensures var late := OnConnect(OnGameState(cs, m), id);
            var onTime := OnGameState(OnConnect(cs, id), m);
            && late.gameState == onTime.gameState && late.allPlayers == onTime.allPlayers
            && late.spectator == onTime.spectator && late.overlay == onTime.overlay
            && late.pending == None && onTime.pending == None
            && late.roundEndsAt == cs.roundEndsAt && onTime.roundEndsAt == ClockOf(m.roundEndsAt)
  {
  }

  /** Only the latest parked `game_state` is replayed on `connect`. */
  lemma LatestParkedWins(cs: ClientState, m1: GameStateMsg, m2: GameStateMsg, id: Id)
    requires !cs.gotSocketId
    ensures OnConnect(OnGameState(OnGameState(cs, m1), m2), id).gameState == m2.state
    ensures OnConnect(OnGameState(OnGameState(cs, m1), m2), id).allPlayers == m2.players.GetOr(map[])
  {
  }

  /** The end-of-round banner stays up through player lists, key presses
      and an `ended` state message, and a lobby message replaces it. */
  lemma BannerStaysUntilLobby(cs: ClientState, w: Option<string>, list: PlayerListMsg, key: string, m: GameStateMsg)
    requires Ready(cs)
    ensures var g := OnGameOver(cs, w);
            && OnPlayerList(g, list).overlay == Banner(w)
            && OnKeyDown(g, key).overlay == Banner(w)
            && OnKeyUp(g, key).overlay == Banner(w)
            && (m.state == Ended ==> OnGameState(g, m).overlay == Banner(w))
            && (m.state == Waiting ==> OnGameState(g, m).overlay != Banner(w))
  {
    BannerIsNoLobbyText(w);
  }

  /** The banner is drawn with the canvas text call, which shows characters
      as they are: the HTML escaping meant for markup leaves the entity in
      the text, so a winner called `a&b` is announced as `a&amp;b`. */
  lemma BannerShowsEntities()
    ensures Banner(Some("a&b")) == WinnerPrefix + "a&amp;b" + "!"
  {
    var w := "a&b";
    assert Escape.EscapeHtml(w) == "a&amp;b" by {
      assert w[1..] == "&b" && w[1..][1..] == "b";
      assert Escape.EscapeHtml("b") == "b";
      assert Escape.EscapeHtml("&b") == "&amp;" + "b";
    }
    assert Truthy(Some(w));
  }
}
